=== FILE: README.md ===
# gitgo core, modelled in Dafny

A model of the pure logic at the heart of gitgo, a Python front end to git:

- **The staging index `GitIndex`.** It has four stages, each a dict from object id to `IndexEntry`:
  - 0 is the checked-out version;
  - 1 is the merge base;
  - 2 is "ours";
  - 3 is "theirs".

  It is addressed by a bare object id, by a `(stage, oid)` pair, or by `(..., oid)` for all four stages. Reads, writes, deletes, iteration, `ls_files`, `len` and version validation are modelled as the code is written, with the assumptions listed under "Left out" (among them, that a `case Oid()` pattern is the `str` check it evidently means). Every mutating operation returns an `Outcome`. This pairs what Python returned or raised with the index as it stands at that moment, because `del` on a missing key raises `KeyError` after earlier assignments and deletions have already taken effect.
- **The command-argument builders** in `lowlevel/cmdargs.py`. These turn keyword arguments into the tokens of a `git` command line. Keyword arguments are an ordered sequence of `(name, value)` pairs. A generator is modelled by the whole sequence it yields.
- **`GitRef` and `Branch`.** These derive a ref's path and short name from a prefix and a name, or from a whole path.
- **The object-id recogniser.** `RE_OID` and `is_oid` are modelled with a small regular-expression matcher that has Python's `re.match` semantics.

Files:

- `wrappers.dfy`: `Option` and `Result`.
- `stage_table.dfy`: a Python dict as an insertion-ordered association list with distinct keys.
  - An assignment keeps an existing key's position, or appends a new key.
  - A deletion closes the gap.
- `index.dfy`: the index as written.
- `index_props.dfy`: its properties, including the points where the code departs from its docstring.
- `index_intended.dfy`: the index with those departures corrected, and the documented rule proved for every operation. The rule is that a file in stage 0 is in none of stages 1–3.
- `cmdargs.dfy`, `refs.dfy`, `gitobj.dfy`: the other three components, each with its as-written and corrected forms where they differ.

Deleting an absent key is best treated as a no-op, but the code uses a plain `del`, which raises `KeyError`. `Index.DelItem` follows the code. The idempotent delete is `IndexIntended.DelItem`.

## Model

| member | source | states |
|---|---|---|
| StageTable.Find | gitgo/index/index.py:110 | `dict.get`: `None` exactly when the key is absent, otherwise the value bound to it |
| StageTable.Put | gitgo/index/index.py:158 | `d[k] = v`: `k` then reads `v` and every other key reads as before. The key set gains `k`. An existing key keeps its position and a new key is appended at the end |
| StageTable.Remove | gitgo/index/index.py:131 | the total removal `Index.DelAt` performs after its membership test (Python's `del d[k]` on a present key): `k` is gone, every other key reads as before, and the key set loses exactly `k` |
| StageTable.RemoveKeepsOrder | gitgo/index/index.py:192-197 | deleting a present key drops exactly its binding, and the other bindings keep their insertion order |
| Index.DelAt | gitgo/index/index.py:131 | `del stages[s][oid]` succeeds exactly when `oid` is in stage `s`. Otherwise it raises `KeyError(oid)` and changes nothing |
| Index.DelChain | gitgo/index/index.py:126-129 | successive deletions stop with `KeyError` at the first stage lacking `oid`. Exactly the stages before that one have lost `oid` |
| Index.NewIndex | gitgo/index/index.py:86-93 | construction succeeds exactly for versions 2, 3 and 4, otherwise `ValueError`. The new index is empty in all four stages |
| Index.GetItem | gitgo/index/index.py:104-121 | a bare oid reads stage 0, `(s, oid)` for s in 0..2 reads that stage, and `(..., oid)` reads all four. Each is what `get` returns. `(3, oid)` and every other shape raise `AttributeError` |
| Index.DelItem | gitgo/index/index.py:122-138 | `del index[s, oid]` succeeds exactly when stage `s` holds `oid`, and stage `s` then lacks it. `del index[oid]` and `del index[..., oid]` succeed exactly when all four stages hold `oid`. Any other shape raises `AttributeError` and changes nothing |
| Index.SetConflict | gitgo/index/index.py:155-159 | `index[s, oid] = v` for s in 1..3: a non-entry raises `TypeError` with no change. Otherwise stage `s` holds the entry, stage 0 lacks `oid`, and the write succeeds exactly when stage 0 had `oid`, raising `KeyError` otherwise |
| Index.AssignSlots | gitgo/index/index.py:172-176 | the `zip` loop over four entries upserts `oid` into every stage from `k` on, and leaves the stages before `k` alone |
| Index.SetAll | gitgo/index/index.py:160-176 | `index[..., oid] = v`: `ValueError` with no change if `oid` already breaks the rule, then `TypeError` with no change unless `v` is a 4-tuple of entries. Otherwise every stage maps `oid` to its slot |
| Index.SetClean | gitgo/index/index.py:181-189 | `index[0, oid] = v`: a falsy value is a stage-0 delete and a non-entry raises `TypeError`. An entry lands in stage 0, and the call succeeds exactly when `oid` was in all of stages 1–3 |
| Index.SetItem | gitgo/index/index.py:149-191 | no write changes the version. An unknown address shape or a stage outside 0..3 raises `AttributeError` with no change |
| IndexProps.VersionValidation | gitgo/index/index.py:79-93 | the default version 3, and versions 2 and 4, construct an index that iterates to nothing. Version 5 raises `ValueError` |
| IndexProps.ReadShapesAgree | gitgo/index/index.py:104-121 | `index[oid]` is `index[0, oid]`, and `(s, oid)` agrees with slot `s` of `(..., oid)` for s in 0..2. `(3, oid)` raises although stage 3 can hold `oid` |
| IndexProps.SetConflictOutcome | gitgo/index/index.py:155-159 | the exact resulting state of a write to stage 1–3. On `KeyError` the new stage-s entry stays |
| IndexProps.SetConflictKeepsInvariant | gitgo/index/index.py:155-159 | a write to stage 1–3 keeps the documented rule, whether it succeeds or raises |
| IndexProps.StageIsolation | gitgo/index/index.py:155-159 | after `index[2, oid] = e` with `oid` in stage 0: stage 2 reads `e`, stage 0 reads nothing, stage 1 reads as before, and stage 3 cannot be read |
| IndexProps.SetCleanOutcome | gitgo/index/index.py:181-189 | `index[0, oid] = e` upserts `oid` into stage 0 and leaves its other entries as they were, then deletes `oid` from stages 1, 2, 3 until the first stage that lacks it. That stage raises `KeyError`, and the stages after it are untouched |
| IndexProps.SetCleanFalsy | gitgo/index/index.py:182-183 | a falsy value deletes `oid` from stage 0 only, or raises `KeyError` with no change |
| IndexProps.SetCleanBreaksExclusive | gitgo/index/index.py:181-189 | a concrete index that keeps the rule, holding `oid` in stages 1 and 3, ends with `oid` in stages 0 and 3 after `index[0, oid] = e` |
| IndexProps.CleanPromotionTwice | gitgo/index/index.py:181-189 | writing the same entry to `(0, oid)` a second time leaves the index as the first write did, and always raises `KeyError` |
| IndexProps.SetAllConflictRejected | gitgo/index/index.py:161-167 | with `oid` already in stage 0 and in a stage 1–3, `index[..., oid] = v` raises `ValueError` and changes nothing, whatever `v` is |
| IndexProps.SetAllNoneSlotRejected | gitgo/index/index.py:168-171 | a 4-tuple with a `None` slot is always rejected with no change |
| IndexProps.SetAllRoundTrip | gitgo/index/index.py:113-119 | after a successful `index[..., oid] = t`, `index[..., oid]` reads back exactly `t`, and every other oid reads as before |
| IndexProps.SetAllBreaksExclusive | gitgo/index/index.py:160-176 | a successful `index[..., oid] = v` leaves `oid` in all four stages, so it breaks the documented rule |
| IndexProps.BareWriteNeverChanges | gitgo/index/index.py:177-180 | `index[oid] = v` never returns normally and never changes the index. It raises `ValueError` exactly when `v` is an entry and `oid` already breaks the rule, and `TypeError` otherwise |
| IndexProps.SetItemAgreesOff | gitgo/index/index.py:149-191 | no write changes any stage's keys other than `oid` |
| IndexProps.DeleteAllOutcome | gitgo/index/index.py:125-136 | `del index[oid]` and `del index[..., oid]` delete from stages 0 to 3 in order until the first stage lacking `oid`. That stage raises `KeyError`, and the earlier deletions remain |
| IndexProps.DeleteAllFailsUnderInvariant | gitgo/index/index.py:125-136 | on an index that keeps the rule, `del index[oid]` and `del index[..., oid]` always raise `KeyError` |
| IndexProps.DeleteStageOutcome | gitgo/index/index.py:130-131 | `del index[s, oid]` removes `oid` from stage `s` only, or raises `KeyError` with no change |
| IndexProps.DeleteKeepsInvariant | gitgo/index/index.py:122-138 | no delete, successful or not, breaks the documented rule |
| IndexProps.IterateStageContents | gitgo/index/index.py:192-197 | the entries iteration yields for stage `s` are exactly `stages[s].values()`, in insertion order |
| IndexProps.IterateStageOrder | gitgo/index/index.py:192-197 | iteration yields stage 0 first, then stages 1, 2 and 3, and only those stages |
| IndexProps.InIterate | gitgo/index/index.py:192-197 | a pair `(s, e)` is yielded exactly when `e` is stored in stage `s` |
| IndexProps.LenIsIterationLength | gitgo/index/index.py:210-214 | `len()`, the sum of the stage sizes, is the number of pairs iteration yields |
| IndexProps.LsFilesFromIteration | gitgo/index/index.py:199-208 | `ls_files(u)` is the set of names of the iterated entries: those of stage 0, or of every stage when `u` holds |
| IndexProps.LsFilesMonotone | gitgo/index/index.py:203 | the merged listing is contained in the unmerged one |
| Index.Iterate | gitgo/index/index.py:192-197 | `iter(index)`, the `(stage, entry)` pairs. No contract of its own: IndexProps.IterateStageContents, IterateStageOrder and InIterate state it |
| Index.LsFiles | gitgo/index/index.py:199-208 | `ls_files(unmerged)`. No contract of its own: IndexProps.LsFilesFromIteration and LsFilesMonotone state it |
| Index.Len | gitgo/index/index.py:210-214 | `len()`. No contract of its own: IndexProps.LenIsIterationLength states it |
| IndexIntended.SetAll | gitgo/index/index.py:160-176 | corrected `index[..., oid] = t`: `TypeError` unless `t` is a 4-tuple of entries and `None`s, and `ValueError` if `t` itself has entries in stage 0 and a stage 1–3, both with no change. Otherwise `oid` is in exactly the stages whose slot is an entry. Each stage is then exactly the old stage with `oid` upserted to its slot's entry, or with `oid` removed for a `None` slot, so no other oid changes |
| IndexIntended.SetItem | gitgo/index/index.py:149-191 | a corrected write that raises changes nothing. An entry written to `(s, oid)` for s in 0..3 always succeeds, and stage `s` then reads it. For s in 1..3, stage `s` is exactly the old stage with `oid` upserted, stage 0 loses only `oid`, and the other stages are unchanged. A falsy value written to `(0, oid)` removes `oid` from stage 0 and changes nothing else |
| IndexIntended.DelItem | gitgo/index/index.py:122-138 | a corrected delete succeeds for every valid address. `del index[s, oid]` makes stage `s` exactly the old stage without `oid` and leaves the other stages alone. `del index[oid]` and `del index[..., oid]` make every stage exactly the old stage without `oid` |
| IndexIntended.DelAbsentIsNoOp | gitgo/index/index.py:122-138 | deleting an oid that none of the addressed stages holds succeeds and leaves the index exactly as it was |
| IndexIntended.GetItem | gitgo/index/index.py:62-69 | the corrected read `(s, oid)` admits every stage 0–3, as the docstring lists them |
| IndexIntended.ReadEveryStage | gitgo/index/index.py:65-69 | `index[s, oid]` is slot `s` of `index[..., oid]` for every stage, stage 3 included |
| IndexIntended.SetItemKeepsInvariant | gitgo/index/index.py:74-76 | every corrected write keeps the rule that a file in stage 0 is in none of stages 1–3 |
| IndexIntended.DelItemKeepsInvariant | gitgo/index/index.py:74-76 | every corrected delete keeps the same rule |
| IndexIntended.PromoteClears | gitgo/index/index.py:71-72 | the corrected `index[oid] = e` succeeds, reads back as `(e, None, None, None)`, and is idempotent |
| IndexIntended.Promote | gitgo/index/index.py:181-189 | the corrected stage-0 write: stage 0 is exactly the old stage 0 with `oid` upserted to `e`, and each of stages 1–3 is exactly the old stage without `oid`, whichever of them held it |
| IndexIntended.PromoteWrites | gitgo/index/index.py:177-180 | the corrected `index[oid] = e` succeeds and is exactly that promotion |
| IndexIntended.PromoteIdempotent | gitgo/index/index.py:181-189 | promoting the same entry twice leaves the index as promoting it once |
| IndexIntended.SetAllRoundTrip | gitgo/index/index.py:69 | an admissible `index[..., oid] = t` reads back as exactly `t`, `None` slots included |
| IndexIntended.ForeignSlotRejected | gitgo/index/index.py:168-171 | a tuple with an item that is neither an entry nor `None` raises `TypeError` and changes nothing. This holds in the corrected write, and in the code once its stage check passes |
| IndexIntended.ConflictRejected | gitgo/index/index.py:74-76 | a tuple with entries in stages 0 and 1 is rejected with `ValueError` and changes nothing |
| IndexIntended.DelItemIdempotent | gitgo/index/index.py:122-138 | deleting twice is the same as deleting once |
| CmdArgs.IntDecimalRoundTrip | gitgo/lowlevel/cmdargs.py:25-26 | the decimal text of an int parses back to the same int |
| CmdArgs.MkStr | gitgo/lowlevel/cmdargs.py:12-26 | `None` raises `ValueError` and nothing else does. A string is returned unchanged, and a bool is `"true"` or `"false"`. A truthy value never gives empty text |
| CmdArgs.PathEqIsTextEq | gitgo/lowlevel/cmdargs.py:21-22 | two paths compare equal exactly when `mkstr` renders them alike, so `Path('') == Path('.')` |
| CmdArgs.MkStrIntRoundTrip | gitgo/lowlevel/cmdargs.py:25-26 | `mkstr` of an int is canonical decimal text, with no leading zero and no `-0`, that reads back as the same int |
| CmdArgs.Dashes | gitgo/lowlevel/cmdargs.py:35 | `replace('_', '-')` keeps the length, turns every `_` into `-`, keeps every other character, and leaves no underscore |
| CmdArgs.MkFlg | gitgo/lowlevel/cmdargs.py:28-39 | a flag always starts with `-`, and an unmapped name has no underscore left. A mapped name starting with `-` is used verbatim, and any other name gets `--` in front |
| CmdArgs.MkFlgIdempotent | gitgo/lowlevel/cmdargs.py:28-39 | passing an unmapped flag back through `mkflg` returns it unchanged |
| CmdArgs.Flags | gitgo/lowlevel/cmdargs.py:42-49 | one token per truthy argument, each starting with `-` |
| CmdArgs.FlagsAppend | gitgo/lowlevel/cmdargs.py:49 | `flags` handles the arguments one by one, in argument order |
| CmdArgs.FlagsSingle | gitgo/lowlevel/cmdargs.py:49 | one argument yields its `mkflg` token exactly when it is truthy |
| CmdArgs.Negated | gitgo/lowlevel/cmdargs.py:51-60 | one `--no-` token per falsy argument |
| CmdArgs.NegatedAppend | gitgo/lowlevel/cmdargs.py:58-60 | `negated` handles the arguments one by one, in argument order |
| CmdArgs.NegatedSingle | gitgo/lowlevel/cmdargs.py:58-60 | one argument yields `--no-<name>` exactly when it is falsy |
| CmdArgs.FlagsNegatedPartition | gitgo/lowlevel/cmdargs.py:42-60 | every argument yields exactly one token between `flags` and `negated` |
| CmdArgs.Exclusive | gitgo/lowlevel/cmdargs.py:62-71 | `ValueError` exactly when more than one argument is truthy, or when required and none is. Otherwise the output is what `flags` gives: one token when required, at most one otherwise |
| CmdArgs.Optional | gitgo/lowlevel/cmdargs.py:79-83 | empty exactly when `v == d` in Python's sense, with `1 == True` and `Path('') == Path('.')`, otherwise `(v,)` |
| CmdArgs.PyEq | gitgo/lowlevel/cmdargs.py:80 | Python `==` between two argument values. No contract of its own: CmdArgs.OptionalCases and PathEqIsTextEq state it |
| CmdArgs.OptionalCases | gitgo/lowlevel/cmdargs.py:79-83 | with the default `None`, only `None` is dropped. `optional(v, v)` is empty. `1 == True` and `Path('') == Path('.')` count as equal, and `Path('a')` differs from `Path('.')` |
| CmdArgs.Arg1s | gitgo/lowlevel/cmdargs.py:85-103 | `ValueError` exactly when a kept argument is `None`. Otherwise every token is `-…=…` |
| CmdArgs.Arg1sDefault | gitgo/lowlevel/cmdargs.py:85-103 | with the default `_omit`, `arg1s` never fails and yields `<mkflg(k)>=<mkstr(v)>` for exactly the truthy arguments, in order |
| CmdArgs.EnumOrTrue | gitgo/lowlevel/cmdargs.py:106-133 | `False` or an omitted value yields nothing. Otherwise `True` yields exactly `--key`, a keyword string yields exactly `--key=value`, and anything else raises `ValueError` |
| CmdArgs.EnumOrTrueDefault | gitgo/lowlevel/cmdargs.py:109 | with the default `_omit`, falsy values yield nothing and a non-zero int raises |
| CmdArgs.Arg2sShape | gitgo/lowlevel/cmdargs.py:135-153 | `arg2s` yields two tokens per truthy argument: at position `2i` the flag and at `2i + 1` the `mkstr` text of the `i`-th truthy argument. Its flags, at the even positions, are exactly what `flags` yields |
| CmdArgs.Arg2s | gitgo/lowlevel/cmdargs.py:135-153 | `arg2s(_map=m, **kw)`. No contract of its own: CmdArgs.Arg2sShape states it |
| Refs.Split | gitgo/ref/ref.py:18 | `split('/')` gives at least one part, and no part contains `/` |
| Refs.SplitJoin | gitgo/ref/ref.py:18 | joining the parts of a split with `/` gives the string back |
| Refs.JoinSplit | gitgo/ref/ref.py:18 | splitting a join of `/`-free parts gives the parts back |
| Refs.LastComponent | gitgo/ref/ref.py:18 | `split('/')[-1]` is a `/`-free suffix that is either the whole string or preceded by `/` |
| Refs.NewRef | gitgo/ref/ref.py:11-18 | with a non-empty name, it is stored as given and `path == prefix + "/" + name`. Otherwise `path` is the argument and `name` its last component. In both cases `path` ends with `name` |
| Refs.TrailingSlashNamesNothing | gitgo/ref/ref.py:16-18 | a path ending in `/` gives the name `""` |
| Refs.RebuildFromStr | gitgo/ref/ref.py:11-21 | building a ref from `str(ref)` gives the same ref back, for every ref with a `/`-free name |
| Refs.ToStr | gitgo/ref/ref.py:20-21 | `str(ref)` is the ref's path. No contract of its own: Refs.RebuildFromStr states it |
| Refs.NewBranch | gitgo/branch/branch.py:12-13 | a non-empty name gives path `refs/heads//<name>` with that name, and the empty name gives path `refs/heads/` and name `""`. The path always starts with `refs/heads/` |
| Refs.BranchPathDoubledSlash | gitgo/branch/branch.py:13 | as written, a non-empty name's path has `//` after `refs/heads` and is never `refs/heads/<name>` |
| Refs.BranchIntendedPath | gitgo/branch/branch.py:12-13 | the corrected branch has path `refs/heads/<name>` and keeps its name. Rebuilding it from its path returns it when the name has no `/` |
| Refs.NewBranchIntended | gitgo/branch/branch.py:12-13 | `Branch(repo, name)` with the prefix `refs/heads`. No contract of its own: Refs.BranchIntendedPath states it |
| GitObj.ReOidMatches | gitgo/object/gitobj.py:10 | `^[0-9a-f]$` matches exactly one lower-case hex digit, optionally followed by a newline |
| GitObj.IsOidNeverHolds | gitgo/object/gitobj.py:10-14 | `is_oid` is false of every string. This subsumes the facts that it needs length 40 or 64 and a match of `RE_OID` |
| GitObj.IsOid | gitgo/object/gitobj.py:11-14 | `is_oid` as written. No contract of its own: GitObj.IsOidNeverHolds states it |
| GitObj.IsOidIntendedSpec | gitgo/object/gitobj.py:11-14 | the corrected pattern accepts exactly the 40- and 64-character lower-case hex strings |
| GitObj.IsOidIntended | gitgo/object/gitobj.py:10-14 | `is_oid` with the pattern `^[0-9a-f]{40}\Z` or `^[0-9a-f]{64}\Z`. No contract of its own: GitObj.IsOidIntendedSpec states it |
| GitObj.EmptyBlobId | gitgo/object/gitobj.py:11-14 | the SHA-1 id of the empty blob passes the corrected check and fails `is_oid` |

## Left out

- The `backend` field of `GitIndex`, its `FrontendBase` parent and `GitPhysIndex`: these are scaffolding and file I/O with no index logic.
- `IndexEntry` fields other than `name` are carried but never inspected. Float timestamps are kept opaque as integers.
- `Oid` is `NewType('Oid', str)` (gitgo/object/gitobj.py:8), which is not a class. So in CPython every `case Oid()` pattern in index.py raises `TypeError` when it is reached, and as written every subscript read, write and delete raises. The model assumes the evidently intended check: a `case Oid()` matches any `str`.
- An `IndexEntry` is always truthy.
- gitgo/ref/ref.py:5 calls `NewType` without importing it, so importing the module raises `NameError`. The model assumes the import is present.
- The `repo` field of `GitRef`, and the `__repr__` methods of `GitRef` and `Branch`, are not modelled. They only format the repository.
- `conditional` in cmdargs.py: it is not one of the modelled builders.
- The float case of `CmdArg`/`mkstr` is not modelled, because it needs Python's float formatting.
- `Path` text is taken as already normalised. Only `Path('')` becoming `"."` is modelled.
- The `_omit`, `_explicit_true` and `_explicit_false` parameters of `arg2s` are not modelled: the code never uses them.
- Generator laziness is not modelled. An exception raised while a generator runs is a failure of the whole call.
- CmdArgs.Arg1s: for a custom `_omit`, the result is stated only by its failure condition and token shape. The exact token sequence is stated for the default `_omit` by `CmdArgs.Arg1sDefault`.
- CmdArgs.MkStr: does not model the limit of CPython 3.10.7 and later (`int_max_str_digits`, 4300 by default), under which `str()` of an int of more than 4300 digits raises `ValueError`. The limit depends on the interpreter version and settings, and modelling it would make every builder fail for such ints.
- CmdArgs.MkStrIntRoundTrip: states success for every int, so it leaves out the same digit limit.
- CmdArgs.EnumOrTrue: `_map` and the extra keyword arguments are accepted by the source and ignored, so they are not parameters.

## Findings

| source | as written | input that shows it | evidently intended | confidence | as-written member | corrected member |
|---|---|---|---|---|---|---|
| gitgo/index/index.py:111 | the `(stage, oid)` read pattern lists stages 0, 1 and 2 only | `index[3, oid]` raises `AttributeError` | the docstring's `index[3, oid]` reads stage 3 | high, not executed | IndexProps.ReadShapesAgree | IndexIntended.ReadEveryStage |
| gitgo/index/index.py:168-180 | `index[oid] = e` delegates `(e, None, None, None)`, which the all-entries type check rejects | `index[oid] = e` on an empty index raises `TypeError` | promote `e` to stage 0 and clear stages 1–3 | high, not executed | IndexProps.BareWriteNeverChanges | IndexIntended.PromoteClears |
| gitgo/index/index.py:181-189 | the stage-0 write deletes from stages 1–3 with `del`, stopping at the first `KeyError` | `oid` in stages 1 and 3 only, then `index[0, oid] = e`: `oid` ends in stages 0 and 3 | clear every stage 1–3 that holds `oid`, keeping the documented rule | high, not executed | IndexProps.SetCleanBreaksExclusive | IndexIntended.SetItemKeepsInvariant |
| gitgo/index/index.py:160-176 | the conflict check looks at the old state and every slot must be an entry | any successful `index[..., oid] = (e, e, e, e)` puts `oid` in all four stages | reject a tuple that itself breaks the rule, and let `None` slots delete | medium, not executed | IndexProps.SetAllBreaksExclusive | IndexIntended.SetAll |
| gitgo/index/index.py:125-136 | `del index[oid]` deletes from all four stages with plain `del` | on any index keeping the rule, `del index[oid]` raises `KeyError` | deleting an absent key is a no-op | medium, not executed | IndexProps.DeleteAllFailsUnderInvariant | IndexIntended.DelAbsentIsNoOp |
| gitgo/object/gitobj.py:10-14 | `RE_OID` matches a single hex digit, while `is_oid` demands length 40 or 64 | `"e69de29bb2d1d6434b8b29ae775ad8c2e48c5391"` is rejected | accept 40 or 64 lower-case hex digits | high, not executed | GitObj.IsOidNeverHolds | GitObj.IsOidIntendedSpec |
| gitgo/branch/branch.py:13 | the prefix `'refs/heads/'` is joined to the name with another `/` | `Branch(repo, "main")` has path `refs/heads//main` | path `refs/heads/main` | high, not executed | Refs.BranchPathDoubledSlash | Refs.BranchIntendedPath |

=== FILE: cmdargs.dfy ===
/**
 * The command-argument builders of gitgo/lowlevel/cmdargs.py: pure functions
 * that turn Python keyword arguments into command-line tokens.
 *
 * Keyword arguments are an ordered sequence of `(name, value)` pairs, in the
 * order the caller wrote them.  A generator is modelled by the whole sequence
 * it yields; an exception raised while it runs is a `Failure` of the call.
 */
module CmdArgs {
  import opened Wrappers

  /** A value passed to a command: `str`, `Path`, `int`, `bool`, or `None`. */
  datatype Value = Str(s: string) | PathV(text: string) | Int(i: int) | Bool(b: bool) | NoneV

  /** The one exception these builders raise. */
  datatype ArgError = ValueError

  type Kwargs = seq<(string, Value)>

  /** The `_map` argument: argument names to flag names. */
  type FlagMap = map<string, string>

  /** Python truthiness; a `Path` object is always truthy. */
  predicate Truthy(v: Value) {
    match v
    case Str(s) => s != ""
    case PathV(_) => true
    case Int(i) => i != 0
    case Bool(b) => b
    case NoneV => false
  }

  /** `str(Path(p))` for a normalised `p`: the empty path is `.`. */
  function PathText(p: string): (r: string)
    ensures r != ""
    ensures p != "" ==> r == p
  {
    if p == "" then "." else p
  }

  /**
   * Python `==` between two values: `1 == True` and `0 == False`; two paths
   * are equal when they render alike, so `Path('') == Path('.')`.
   */
  predicate PyEq(a: Value, b: Value) {
    match (a, b)
    case (Str(x), Str(y)) => x == y
    case (PathV(x), PathV(y)) => PathText(x) == PathText(y)
    case (NoneV, NoneV) => true
    case (Int(x), Int(y)) => x == y
    case (Int(x), Bool(y)) => x == (if y then 1 else 0)
    case (Bool(x), Int(y)) => (if x then 1 else 0) == y
    case (Bool(x), Bool(y)) => x == y
    case _ => false
  }

  /** The number of arguments with a truthy value. */
  function CountTruthy(kw: Kwargs): (n: nat)
    ensures n <= |kw|
  {
    if |kw| == 0 then 0 else (if Truthy(kw[0].1) then 1 else 0) + CountTruthy(kw[1..])
  }

  /** The arguments with a truthy value, in order. */
  function TruthyArgs(kw: Kwargs): (r: Kwargs)
    ensures |r| == CountTruthy(kw)
    ensures forall i :: 0 <= i < |r| ==> Truthy(r[i].1) && r[i] in kw
  {
    if |kw| == 0 then []
    else (if Truthy(kw[0].1) then [kw[0]] else []) + TruthyArgs(kw[1..])
  }

  // ---------------------------------------------------------------------------
  // Decimal text of an int

  predicate IsDigit(c: char) {
    '0' <= c <= '9'
  }

  function DigitChar(d: nat): (c: char)
    requires d < 10
    ensures IsDigit(c)
  {
    (48 + d) as char
  }

  function DigitValue(c: char): nat
    requires IsDigit(c)
  {
    (c as int) - 48
  }

  /** `str(n)` for `n >= 0`: decimal digits, no leading zero. */
  function NatToDecimal(n: nat): (r: string)
    ensures |r| > 0 && forall c :: c in r ==> IsDigit(c)
    ensures r[0] == '0' ==> n == 0
    decreases n
  {
    if n < 10 then [DigitChar(n)] else NatToDecimal(n / 10) + [DigitChar(n % 10)]
  }

  /** `str(i)`: a leading `-` for negative numbers. */
  function IntToDecimal(i: int): string {
    if i < 0 then "-" + NatToDecimal(-i) else NatToDecimal(i)
  }

  /** The value of a string of decimal digits (an independent reading of `str`). */
  function DecimalValue(s: string): nat
    requires forall c :: c in s ==> IsDigit(c)
  {
    if |s| == 0 then 0 else 10 * DecimalValue(s[..|s| - 1]) + DigitValue(s[|s| - 1])
  }

  /** Python's `int(s)` on what `str` produces. */
  function ParseInt(s: string): int
    requires |s| > 0
    requires forall c :: c in s[1..] ==> IsDigit(c)
    requires s[0] == '-' || IsDigit(s[0])
  {
    if s[0] == '-' then -(DecimalValue(s[1..]) as int) else DecimalValue(s)
  }

  lemma {:induction false} NatDecimalRoundTrip(n: nat)
    ensures DecimalValue(NatToDecimal(n)) == n
    decreases n
  {
    var r := NatToDecimal(n);
    if n >= 10 {
      NatDecimalRoundTrip(n / 10);
      assert r[..|r| - 1] == NatToDecimal(n / 10);
    }
  }

  /** `int(str(i)) == i`. */
  lemma IntDecimalRoundTrip(i: int)
    ensures var s := IntToDecimal(i);
      |s| > 0 && (s[0] == '-' || IsDigit(s[0])) && (forall c :: c in s[1..] ==> IsDigit(c)) &&
      ParseInt(s) == i
  {
    var s := IntToDecimal(i);
    if i < 0 {
      NatDecimalRoundTrip(-i);
      assert s[1..] == NatToDecimal(-i);
    } else {
      NatDecimalRoundTrip(i);
      assert forall c :: c in s[1..] ==> c in s;
    }
  }

  // ---------------------------------------------------------------------------
  // mkstr and mkflg

  /**
   * `mkstr(v)`: `None` raises `ValueError`; a string is returned unchanged; a
   * path gives its text (`Path('')` is `'.'`); a bool gives `"true"` or
   * `"false"`; an int gives its decimal text.
   */
  function MkStr(v: Value): (r: Result<string, ArgError>)
    ensures r.Failure? <==> v.NoneV?
    ensures v.Str? ==> r == Success(v.s)
    ensures v.Bool? ==> r == Success(if v.b then "true" else "false")
    ensures Truthy(v) ==> r.Success? && |r.value| > 0
  {
    match v
    case NoneV => Failure(ValueError)
    case Str(s) => Success(s)
    case PathV(p) => Success(PathText(p))
    case Bool(b) => Success(if b then "true" else "false")
    case Int(i) => Success(IntToDecimal(i))
  }

  /** Two paths compare equal exactly when `mkstr` renders them alike. */
  lemma PathEqIsTextEq(x: string, y: string)
    ensures PyEq(PathV(x), PathV(y)) <==> MkStr(PathV(x)) == MkStr(PathV(y))
  {
  }

  /** An int is rendered as canonical decimal text (no leading zero, no `-0`) that reads back as the same int. */
  lemma MkStrIntRoundTrip(i: int)
    ensures var s := MkStr(Int(i)).value;
      |s| > 0 && (s[0] == '-' || IsDigit(s[0])) && (forall c :: c in s[1..] ==> IsDigit(c)) &&
      ParseInt(s) == i &&
      (s[0] == '0' ==> s == "0") && (s[0] == '-' ==> |s| > 1 && s[1] != '0')
  {
    IntDecimalRoundTrip(i);
    if i < 0 {
      assert MkStr(Int(i)).value[1..] == NatToDecimal(-i);
    }
  }

  /** `k.replace('_', '-')`. */
  function Dashes(k: string): (r: string)
    ensures |r| == |k|
    ensures '_' !in r
    ensures forall i :: 0 <= i < |k| && k[i] != '_' ==> r[i] == k[i]
    ensures forall i :: 0 <= i < |k| && k[i] == '_' ==> r[i] == '-'
  {
    if |k| == 0 then "" else [if k[0] == '_' then '-' else k[0]] + Dashes(k[1..])
  }

  /** `_map.get(k, k.replace('_', '-'))`. */
  function FlagName(k: string, m: FlagMap): string {
    if k in m then m[k] else Dashes(k)
  }

  /**
   * `mkflg(k, _map)`: the mapped or dashed name, used as is when it starts
   * with `-`, otherwise with `--` in front.
   */
  function MkFlg(k: string, m: FlagMap): (r: string)
    ensures |r| > 0 && r[0] == '-'
    ensures k !in m ==> '_' !in r
    ensures var n := FlagName(k, m); if |n| > 0 && n[0] == '-' then r == n else r == "--" + n
  {
    var n := FlagName(k, m);
    if |n| > 0 && n[0] == '-' then n else "--" + n
  }

  lemma {:induction false} DashesFixed(k: string)
    requires '_' !in k
    ensures Dashes(k) == k
  {
    if |k| > 0 {
      DashesFixed(k[1..]);
    }
  }

  /** A flag built from an unmapped name is a fixed point of `mkflg`. */
  lemma MkFlgIdempotent(k: string, m: FlagMap)
    requires k !in m
    ensures MkFlg(MkFlg(k, m), map[]) == MkFlg(k, m)
  {
    DashesFixed(MkFlg(k, m));
  }

  // ---------------------------------------------------------------------------
  // flags, negated, exclusive, optional

  /** `flags(_map=m, **kw)`: one flag per truthy argument. */
  function Flags(m: FlagMap, kw: Kwargs): (r: seq<string>)
    ensures |r| == CountTruthy(kw)
    ensures forall i :: 0 <= i < |r| ==> |r[i]| > 0 && r[i][0] == '-'
  {
    if |kw| == 0 then []
    else (if Truthy(kw[0].1) then [MkFlg(kw[0].0, m)] else []) + Flags(m, kw[1..])
  }

  /** `flags` handles each argument on its own and keeps their order. */
  lemma {:induction false} FlagsAppend(m: FlagMap, a: Kwargs, b: Kwargs)
    ensures Flags(m, a + b) == Flags(m, a) + Flags(m, b)
  {
    if |a| == 0 {
      assert a + b == b;
    } else {
      assert (a + b)[1..] == a[1..] + b;
      FlagsAppend(m, a[1..], b);
    }
  }

  /** A single argument yields its flag exactly when it is truthy. */
  lemma FlagsSingle(m: FlagMap, k: string, v: Value)
    ensures Flags(m, [(k, v)]) == if Truthy(v) then [MkFlg(k, m)] else []
  {
  }

  /** `negated(_map=m, **kw)`: `--no-<name>` per falsy argument. */
  function Negated(m: FlagMap, kw: Kwargs): (r: seq<string>)
    ensures |r| == |kw| - CountTruthy(kw)
    ensures forall i :: 0 <= i < |r| ==> |r[i]| >= 5 && r[i][..5] == "--no-"
  {
    if |kw| == 0 then []
    else (if !Truthy(kw[0].1) then ["--no-" + FlagName(kw[0].0, m)] else []) + Negated(m, kw[1..])
  }

  /** `negated` handles each argument on its own and keeps their order. */
  lemma {:induction false} NegatedAppend(m: FlagMap, a: Kwargs, b: Kwargs)
    ensures Negated(m, a + b) == Negated(m, a) + Negated(m, b)
  {
    if |a| == 0 {
      assert a + b == b;
    } else {
      assert (a + b)[1..] == a[1..] + b;
      NegatedAppend(m, a[1..], b);
    }
  }

  /** A single argument yields `--no-<name>` exactly when it is falsy. */
  lemma NegatedSingle(m: FlagMap, k: string, v: Value)
    ensures Negated(m, [(k, v)]) == if Truthy(v) then [] else ["--no-" + FlagName(k, m)]
  {
  }

  /** Every argument yields a token from exactly one of `flags` and `negated`. */
  lemma {:induction false} FlagsNegatedPartition(m: FlagMap, kw: Kwargs)
    ensures |Flags(m, kw)| + |Negated(m, kw)| == |kw|
    ensures forall i :: 0 <= i < |kw| ==>
      (Truthy(kw[i].1) ==> MkFlg(kw[i].0, m) in Flags(m, kw)) &&
      (!Truthy(kw[i].1) ==> "--no-" + FlagName(kw[i].0, m) in Negated(m, kw))
  {
    if |kw| > 0 {
      FlagsNegatedPartition(m, kw[1..]);
      forall i | 0 < i < |kw| ensures kw[i] == kw[1..][i - 1] { }
    }
  }

  lemma {:induction false} FlagsOfTruthyArgs(m: FlagMap, kw: Kwargs)
    ensures Flags(m, TruthyArgs(kw)) == Flags(m, kw)
  {
    if |kw| > 0 {
      FlagsOfTruthyArgs(m, kw[1..]);
      var head: Kwargs := if Truthy(kw[0].1) then [kw[0]] else [];
      FlagsAppend(m, head, TruthyArgs(kw[1..]));
    }
  }

  /**
   * `exclusive(required, m, **kw)`: `ValueError` when more than one argument
   * is truthy, or when `required` and none is; otherwise the flag of the one
   * truthy argument, if any.  Argument names are distinct, as Python
   * guarantees for keyword arguments.
   */
  function Exclusive(required: bool, m: FlagMap, kw: Kwargs): (r: Result<seq<string>, ArgError>)
    ensures r.Failure? <==> CountTruthy(kw) > 1 || (required && CountTruthy(kw) == 0)
    ensures r.Success? ==> |r.value| <= 1 && r.value == Flags(m, kw)
    ensures r.Success? && required ==> |r.value| == 1
  {
    var chosen := TruthyArgs(kw);
    if |chosen| > 1 then Failure(ValueError)
    else if required && |chosen| == 0 then Failure(ValueError)
    else
      FlagsOfTruthyArgs(m, kw);
      Success(Flags(m, chosen))
  }

  /** `optional(v, d)`: nothing when `v == d`, otherwise `(v,)`. */
  function Optional(v: Value, d: Value): (r: seq<Value>)
    ensures |r| <= 1
    ensures r == [] <==> PyEq(v, d)
    ensures r != [] ==> r[0] == v
  {
    if PyEq(v, d) then [] else [v]
  }

  /** With the default `None`, only `None` itself is dropped; `1` equals `True`. */
  lemma OptionalCases(v: Value)
    ensures Optional(v, NoneV) == [] <==> v.NoneV?
    ensures Optional(v, v) == []
    ensures Optional(Int(1), Bool(true)) == []
    ensures Optional(PathV(""), PathV(".")) == []
    ensures Optional(PathV("a"), PathV(".")) == [PathV("a")]
  {
  }

  // ---------------------------------------------------------------------------
  // arg1s, enum_or_true, arg2s

  /** The default `_omit`: leave out falsy values. */
  predicate DefaultOmit(k: string, v: Value) {
    !Truthy(v)
  }

  /**
   * `arg1s(_map=m, _omit=omit, **kw)`: `<flag>=<text>` per argument `omit`
   * keeps; a kept `None` raises `ValueError`.
   */
  function Arg1s(m: FlagMap, omit: (string, Value) -> bool, kw: Kwargs): (r: Result<seq<string>, ArgError>)
    ensures r.Failure? <==> exists i :: 0 <= i < |kw| && !omit(kw[i].0, kw[i].1) && kw[i].1.NoneV?
    ensures r.Success? ==> forall t :: t in r.value ==> |t| > 0 && t[0] == '-' && '=' in t
  {
    if |kw| == 0 then Success([])
    else
      var (k, v) := kw[0];
      var rest := Arg1s(m, omit, kw[1..]);
      assert forall i :: 0 < i < |kw| ==> kw[i] == kw[1..][i - 1];
      if omit(k, v) then rest
      else if v.NoneV? then Failure(ValueError)
      else if rest.Failure? then rest
      else
        var t := MkFlg(k, m) + "=" + MkStr(v).value;
        assert t[|MkFlg(k, m)|] == '=';
        Success([t] + rest.value)
  }

  /** The token `arg1s` yields for one kept argument. */
  function Arg1Token(m: FlagMap, k: string, v: Value): string
    requires !v.NoneV?
  {
    MkFlg(k, m) + "=" + MkStr(v).value
  }

  /** The tokens of the arguments `kw`, none of them omitted. */
  function Arg1Tokens(m: FlagMap, kw: Kwargs): (r: seq<string>)
    requires forall i :: 0 <= i < |kw| ==> !kw[i].1.NoneV?
    ensures |r| == |kw|
    ensures forall i :: 0 <= i < |kw| ==> r[i] == Arg1Token(m, kw[i].0, kw[i].1)
  {
    if |kw| == 0 then [] else [Arg1Token(m, kw[0].0, kw[0].1)] + Arg1Tokens(m, kw[1..])
  }

  /**
   * With the default `_omit`, `arg1s` never fails and yields exactly one
   * token per truthy argument, in order.
   */
  lemma {:induction false} Arg1sDefault(m: FlagMap, kw: Kwargs)
    ensures Arg1s(m, DefaultOmit, kw) == Success(Arg1Tokens(m, TruthyArgs(kw)))
  {
    if |kw| > 0 {
      Arg1sDefault(m, kw[1..]);
      if Truthy(kw[0].1) {
        assert TruthyArgs(kw) == [kw[0]] + TruthyArgs(kw[1..]);
        assert Arg1Tokens(m, TruthyArgs(kw)) == [Arg1Token(m, kw[0].0, kw[0].1)] + Arg1Tokens(m, TruthyArgs(kw[1..]));
      } else {
        assert TruthyArgs(kw) == TruthyArgs(kw[1..]);
      }
    }
  }

  /**
   * `enum_or_true(key, value, _keywords=kws, _omit=omit)`: nothing for
   * `False` or an omitted value, `--key` for `True`, `--key=value` for a
   * keyword string, and `ValueError` for anything else.  `_map` is accepted
   * but never used; `case False` and `case True` match only the bools.
   */
  function EnumOrTrue(key: string, value: Value, kws: seq<string>, omit: (string, Value) -> bool)
    : (r: Result<seq<string>, ArgError>)
    ensures value == Bool(false) ==> r == Success([])
    ensures omit(key, value) && value != Bool(false) ==> r == Success([])
    ensures value == Bool(true) && !omit(key, value) ==> r == Success(["--" + key])
    ensures value.Str? && value.s in kws && !omit(key, value) ==>
      r == Success(["--" + key + "=" + value.s])
    ensures r.Failure? <==>
      value != Bool(false) && !omit(key, value) && value != Bool(true) && !(value.Str? && value.s in kws)
  {
    if value == Bool(false) then Success([])
    else if omit(key, value) then Success([])
    else if value == Bool(true) then Success(["--" + key])
    else if value.Str? && value.s in kws then Success(["--" + key + "=" + value.s])
    else Failure(ValueError)
  }

  /** With the default `_omit`: falsy values yield nothing, a truthy int raises. */
  lemma EnumOrTrueDefault(key: string, value: Value, kws: seq<string>)
    ensures !Truthy(value) ==> EnumOrTrue(key, value, kws, DefaultOmit) == Success([])
    ensures value.Int? && value.i != 0 ==> EnumOrTrue(key, value, kws, DefaultOmit).Failure?
    ensures EnumOrTrue(key, Bool(true), kws, DefaultOmit) == Success(["--" + key])
  {
  }

  /** The `(flag, text)` pairs `arg2s` builds, one per truthy argument. */
  function ArgPairs(m: FlagMap, kw: Kwargs): (r: seq<(string, string)>)
    ensures |r| == CountTruthy(kw)
  {
    if |kw| == 0 then []
    else
      var (k, v) := kw[0];
      (if Truthy(v) then [(MkFlg(k, m), MkStr(v).value)] else []) + ArgPairs(m, kw[1..])
  }

  function Flatten(ps: seq<(string, string)>): (r: seq<string>)
    ensures |r| == 2 * |ps|
  {
    if |ps| == 0 then [] else [ps[0].0, ps[0].1] + Flatten(ps[1..])
  }

  /** `(item for item in items if item)`. */
  function KeepNonEmpty(items: seq<string>): (r: seq<string>)
    ensures |r| <= |items|
  {
    if |items| == 0 then []
    else (if items[0] != "" then [items[0]] else []) + KeepNonEmpty(items[1..])
  }

  /** `arg2s(_map=m, **kw)`: `<flag>`, `<text>` per truthy argument, empty items dropped. */
  function Arg2s(m: FlagMap, kw: Kwargs): seq<string> {
    KeepNonEmpty(Flatten(ArgPairs(m, kw)))
  }

  /** The positions 0, 2, 4, ... of a sequence. */
  function Evens(s: seq<string>): seq<string> {
    if |s| == 0 then [] else [s[0]] + (if |s| == 1 then [] else Evens(s[2..]))
  }

  lemma {:induction false} PairsNonEmpty(m: FlagMap, kw: Kwargs)
    ensures forall p :: p in ArgPairs(m, kw) ==> p.0 != "" && p.1 != ""
  {
    if |kw| > 0 {
      PairsNonEmpty(m, kw[1..]);
    }
  }

  lemma {:induction false} KeepAllNonEmpty(items: seq<string>)
    requires forall t :: t in items ==> t != ""
    ensures KeepNonEmpty(items) == items
  {
    if |items| > 0 {
      assert items[0] in items;
      assert forall t :: t in items[1..] ==> t in items;
      KeepAllNonEmpty(items[1..]);
    }
  }

  lemma {:induction false} FlattenNonEmpty(ps: seq<(string, string)>)
    requires forall p :: p in ps ==> p.0 != "" && p.1 != ""
    ensures forall t :: t in Flatten(ps) ==> t != ""
  {
    if |ps| > 0 {
      FlattenNonEmpty(ps[1..]);
    }
  }

  lemma {:induction false} EvensOfPairs(m: FlagMap, kw: Kwargs)
    ensures Evens(Flatten(ArgPairs(m, kw))) == Flags(m, kw)
  {
    if |kw| > 0 {
      EvensOfPairs(m, kw[1..]);
      var rest := Flatten(ArgPairs(m, kw[1..]));
      if Truthy(kw[0].1) {
        var x := [MkFlg(kw[0].0, m), MkStr(kw[0].1).value] + rest;
        assert ArgPairs(m, kw) == [(MkFlg(kw[0].0, m), MkStr(kw[0].1).value)] + ArgPairs(m, kw[1..]);
        assert Flatten(ArgPairs(m, kw)) == x;
        assert x[2..] == rest;
      } else {
        assert ArgPairs(m, kw) == ArgPairs(m, kw[1..]);
      }
    }
  }

  /**
   * `arg2s` drops no item, so it yields two tokens per truthy argument; its
   * flags, at the even positions, are exactly what `flags` yields.
   */
  lemma Arg2sShape(m: FlagMap, kw: Kwargs)
    ensures |Arg2s(m, kw)| == 2 * CountTruthy(kw)
    ensures Evens(Arg2s(m, kw)) == Flags(m, kw)
    ensures forall i :: 0 <= i < CountTruthy(kw) ==>
      Arg2s(m, kw)[2 * i] == MkFlg(TruthyArgs(kw)[i].0, m) &&
      Arg2s(m, kw)[2 * i + 1] == MkStr(TruthyArgs(kw)[i].1).value
  {
    PairsNonEmpty(m, kw);
    FlattenNonEmpty(ArgPairs(m, kw));
    KeepAllNonEmpty(Flatten(ArgPairs(m, kw)));
    EvensOfPairs(m, kw);
    ArgPairsAt(m, kw);
    FlattenAt(ArgPairs(m, kw));
  }

  /** The `i`-th pair is the flag and text of the `i`-th truthy argument. */
  predicate PairsMatchArgs(m: FlagMap, ps: seq<(string, string)>, ts: Kwargs)
    requires forall i :: 0 <= i < |ts| ==> Truthy(ts[i].1)
  {
    |ps| == |ts| && forall i :: 0 <= i < |ts| ==> ps[i] == (MkFlg(ts[i].0, m), MkStr(ts[i].1).value)
  }

  lemma {:induction false} ArgPairsAt(m: FlagMap, kw: Kwargs)
    ensures PairsMatchArgs(m, ArgPairs(m, kw), TruthyArgs(kw))
  {
    if |kw| > 0 {
      ArgPairsAt(m, kw[1..]);
      if Truthy(kw[0].1) {
        assert TruthyArgs(kw) == [kw[0]] + TruthyArgs(kw[1..]);
        assert ArgPairs(m, kw) == [(MkFlg(kw[0].0, m), MkStr(kw[0].1).value)] + ArgPairs(m, kw[1..]);
        PairsMatchCons(m, ArgPairs(m, kw[1..]), TruthyArgs(kw[1..]), kw[0]);
      } else {
        assert TruthyArgs(kw) == TruthyArgs(kw[1..]);
        assert ArgPairs(m, kw) == ArgPairs(m, kw[1..]);
      }
    }
  }

  lemma PairsMatchCons(m: FlagMap, ps: seq<(string, string)>, ts: Kwargs, a: (string, Value))
    requires Truthy(a.1) && forall i :: 0 <= i < |ts| ==> Truthy(ts[i].1)
    requires PairsMatchArgs(m, ps, ts)
    ensures PairsMatchArgs(m, [(MkFlg(a.0, m), MkStr(a.1).value)] + ps, [a] + ts)
  {
    var ps', ts' := [(MkFlg(a.0, m), MkStr(a.1).value)] + ps, [a] + ts;
    forall i | 0 <= i < |ts'| ensures ps'[i] == (MkFlg(ts'[i].0, m), MkStr(ts'[i].1).value) {
      if i > 0 {
        assert ps'[i] == ps[i - 1] && ts'[i] == ts[i - 1];
      }
    }
  }

  /** Flattening puts the `i`-th pair at positions `2i` and `2i + 1`. */
  lemma {:induction false} FlattenAt(ps: seq<(string, string)>)
    ensures forall i :: 0 <= i < |ps| ==> Flatten(ps)[2 * i] == ps[i].0 && Flatten(ps)[2 * i + 1] == ps[i].1
  {
    if |ps| > 0 {
      FlattenAt(ps[1..]);
      assert Flatten(ps) == [ps[0].0, ps[0].1] + Flatten(ps[1..]);
    }
  }
}

=== FILE: gitobj.dfy ===
/**
 * Object-id recognition (gitgo/object/gitobj.py): the `RE_OID` pattern and
 * the `is_oid` predicate.
 *
 * Patterns are modelled as sequences of atoms without alternation or
 * repetition, matched with the semantics of Python's `re.match`: the match
 * is anchored at the start of the string but need not reach its end.
 */
module GitObj {

  /** One atom of a pattern. */
  datatype Atom =
    | Caret                               // `^`: the start of the string
    | Dollar                              // `$`: the end, or just before a final newline
    | EndOfString                         // `\Z`: the end only
    | CharClass(ranges: seq<(char, char)>) // `[a-bc-d]`: one character in a range

  predicate InClass(c: char, ranges: seq<(char, char)>) {
    exists i :: 0 <= i < |ranges| && ranges[i].0 <= c <= ranges[i].1
  }

  /** Whether the atoms `pat` match `s` starting at position `i`. */
  predicate MatchAt(pat: seq<Atom>, s: string, i: nat)
    requires i <= |s|
    decreases |pat|
  {
    if |pat| == 0 then true
    else match pat[0]
      case Caret => i == 0 && MatchAt(pat[1..], s, i)
      case Dollar => (i == |s| || (i == |s| - 1 && s[i] == '\n')) && MatchAt(pat[1..], s, i)
      case EndOfString => i == |s| && MatchAt(pat[1..], s, i)
      case CharClass(rs) => i < |s| && InClass(s[i], rs) && MatchAt(pat[1..], s, i + 1)
  }

  /** `re.match(pat, s) is not None`. */
  predicate ReMatch(pat: seq<Atom>, s: string) {
    MatchAt(pat, s, 0)
  }

  /** `[0-9a-f]`. */
  const HexClass: Atom := CharClass([('0', '9'), ('a', 'f')])

  predicate IsHexLower(c: char) {
    '0' <= c <= '9' || 'a' <= c <= 'f'
  }

  lemma HexClassIsHexLower(c: char)
    ensures InClass(c, HexClass.ranges) <==> IsHexLower(c)
  {
    if IsHexLower(c) {
      if '0' <= c <= '9' {
        assert HexClass.ranges[0].0 <= c <= HexClass.ranges[0].1;
      } else {
        assert HexClass.ranges[1].0 <= c <= HexClass.ranges[1].1;
      }
    }
  }

  /** `RE_OID`, written `^[0-9a-f]$`. */
  const ReOid: seq<Atom> := [Caret, HexClass, Dollar]

  /**
   * `RE_OID` matches exactly the one-character lower-case hex strings,
   * optionally followed by a newline.
   */
  lemma ReOidMatches(s: string)
    ensures ReMatch(ReOid, s) <==>
      (|s| == 1 && IsHexLower(s[0])) || (|s| == 2 && IsHexLower(s[0]) && s[1] == '\n')
  {
    assert ReOid[1..] == [HexClass, Dollar];
    assert ReOid[1..][1..] == [Dollar];
    assert ReMatch(ReOid, s) == MatchAt([HexClass, Dollar], s, 0);
    if |s| > 0 {
      HexClassIsHexLower(s[0]);
      assert MatchAt([HexClass, Dollar], s, 0) ==
        (InClass(s[0], HexClass.ranges) && MatchAt([Dollar], s, 1));
      assert MatchAt([Dollar], s, 1) == (1 == |s| || (1 == |s| - 1 && s[1] == '\n'));
    }
  }

  /** `is_oid(s)` as written. */
  predicate IsOid(s: string) {
    (|s| == 40 || |s| == 64) && ReMatch(ReOid, s)
  }

  /** As written, `is_oid` holds of no string: the length test and the pattern exclude each other. */
  lemma IsOidNeverHolds(s: string)
    ensures !IsOid(s)
  {
    ReOidMatches(s);
  }

  /** A run of `n` hex atoms, `[0-9a-f]{n}`. */
  function HexRun(n: nat): (r: seq<Atom>)
    ensures |r| == n
    ensures forall i :: 0 <= i < n ==> r[i] == HexClass
  {
    if n == 0 then [] else [HexClass] + HexRun(n - 1)
  }

  /** A run of `n` hex atoms followed by `rest` consumes `n` hex characters, then matches `rest`. */
  lemma {:induction false} MatchHexRun(n: nat, rest: seq<Atom>, s: string, i: nat)
    requires i <= |s|
    ensures MatchAt(HexRun(n) + rest, s, i) <==>
      i + n <= |s| && (forall k :: i <= k < i + n ==> IsHexLower(s[k])) && MatchAt(rest, s, i + n)
    decreases n
  {
    if n > 0 {
      var pat := HexRun(n) + rest;
      assert pat[0] == HexClass;
      assert pat[1..] == HexRun(n - 1) + rest;
      if i < |s| {
        HexClassIsHexLower(s[i]);
        MatchHexRun(n - 1, rest, s, i + 1);
      }
    } else {
      assert HexRun(0) + rest == rest;
    }
  }

  /** `^[0-9a-f]{n}\Z`. */
  function FullHex(n: nat): seq<Atom> {
    [Caret] + HexRun(n) + [EndOfString]
  }

  lemma FullHexMatches(n: nat, s: string)
    ensures ReMatch(FullHex(n), s) <==> |s| == n && forall k :: 0 <= k < n ==> IsHexLower(s[k])
  {
    var pat := FullHex(n);
    assert pat[1..] == HexRun(n) + [EndOfString];
    MatchHexRun(n, [EndOfString], s, 0);
  }

  /**
   * `is_oid(s)` as evidently intended: the whole string matches 40 or 64
   * lower-case hex digits.
   */
  predicate IsOidIntended(s: string) {
    ReMatch(FullHex(40), s) || ReMatch(FullHex(64), s)
  }

  /**
   * The intended predicate accepts exactly the SHA-1 and SHA-256 object ids
   * in lower-case hex.
   */
  lemma IsOidIntendedSpec(s: string)
    ensures IsOidIntended(s) <==>
      (|s| == 40 || |s| == 64) && forall k :: 0 <= k < |s| ==> IsHexLower(s[k])
  {
    FullHexMatches(40, s);
    FullHexMatches(64, s);
  }

  /** The SHA-1 id of the empty blob is an object id, yet `is_oid` rejects it. */
  lemma EmptyBlobId()
    ensures IsOidIntended("e69de29bb2d1d6434b8b29ae775ad8c2e48c5391")
    ensures !IsOid("e69de29bb2d1d6434b8b29ae775ad8c2e48c5391")
  {
    var s := "e69de29bb2d1d6434b8b29ae775ad8c2e48c5391";
    assert forall k :: 0 <= k < |s| ==> IsHexLower(s[k]);
    IsOidIntendedSpec(s);
    IsOidNeverHolds(s);
  }
}

=== FILE: index.dfy ===
/**
 * The four-stage staging index `GitIndex` of gitgo/index/index.py, modelled
 * as the code is written.
 *
 * Stage 0 holds the checked-out version of a file, stage 1 the common
 * ancestor of a merge, stage 2 "ours" and stage 3 "theirs".  Reads, writes and
 * deletes are addressed by a bare object id (stage 0), by a `(stage, oid)`
 * pair, or by `(..., oid)` for all four stages at once.
 *
 * Every mutating operation returns an `Outcome`: what the Python call returned
 * or raised, paired with the index as it stands at that moment.  Python's
 * `del` raises `KeyError` on a missing key without undoing the deletions and
 * assignments made before it, and the outcome records exactly that state.
 */
module Index {
  import opened Wrappers
  import opened StageTable

  /** The permission modes an entry may carry: 0o755, 0o644 or 0. */
  datatype FileMode = Executable | Regular | NoMode

  /** The per-entry flags of the index. */
  datatype IdxFlag = AssumeValid | SkipWorktree | IntentToAdd

  /** The kinds of object an index entry may name. */
  datatype EntryKind = Blob | Symlink | Gitlink | Submodule

  /** A float timestamp; the index never inspects it, so it stays opaque. */
  datatype Timestamp = Timestamp(raw: int)

  /**
   * One entry of the index.  Only `name` is ever read by the index; an entry
   * is always truthy.
   */
  datatype IndexEntry = IndexEntry(
    name: string,
    kind: EntryKind,
    oid: Oid,
    mode: FileMode,
    ctime: Timestamp,
    mtime: Timestamp,
    dev: int,
    ino: int,
    uid: int,
    gid: int,
    flags: set<IdxFlag>,
    size: int)

  /** An empty stage dict. */
  const EmptyStage: Table<IndexEntry> := []

  /** The four stage dicts, indexed 0 to 3. */
  type Stages = s: seq<Table<IndexEntry>> | |s| == 4
    witness [EmptyStage, EmptyStage, EmptyStage, EmptyStage]

  /** The index: a format version and its four stages (the backend is not modelled). */
  datatype GitIndex = GitIndex(version: int, stages: Stages)

  /** The Python exceptions the index raises. */
  datatype PyError = ValueError | TypeError | KeyError(key: Oid) | AttributeError

  /**
   * The shape of a subscript: `index[oid]`, `index[stage, oid]`,
   * `index[..., oid]`, or anything else.
   */
  datatype Address = Bare(oid: Oid) | Pair(stage: int, oid: Oid) | AllStages(oid: Oid) | OtherAddress

  /**
   * A value assigned through a subscript.  `TupleVal` is a tuple whose every
   * item is an `IndexEntry` or `None`; `ForeignTupleVal` is a (non-empty)
   * tuple with at least one item that is neither.
   */
  datatype Value =
    | EntryVal(entry: IndexEntry)
    | TupleVal(slots: seq<Option<IndexEntry>>)
    | ForeignTupleVal
    | NoneVal
    | OtherVal(truthy: bool)

  /** What a read returns: one optional entry, or the 4-tuple of `index[..., oid]`. */
  datatype Lookup = Single(entry: Option<IndexEntry>) | Quad(slots: seq<Option<IndexEntry>>)

  /** What a mutating call returned or raised, and the index at that moment. */
  datatype Outcome = Outcome(result: Result<(), PyError>, state: GitIndex)

  /** The version a `GitIndex` gets when none is given. */
  const DefaultVersion := 3

  /** Python truthiness of an assigned value; an `IndexEntry` is always truthy. */
  predicate Truthy(v: Value) {
    match v
    case EntryVal(_) => true
    case TupleVal(slots) => |slots| > 0
    case ForeignTupleVal => true
    case NoneVal => false
    case OtherVal(t) => t
  }

  /** Object id `oid` is a key of stage `s`. */
  predicate Has(ix: GitIndex, s: nat, oid: Oid)
    requires s < 4
  {
    oid in Keys(ix.stages[s])
  }

  /** The documented rule: a file in stage 0 is in none of stages 1-3. */
  predicate Exclusive(ix: GitIndex, oid: Oid) {
    !(Has(ix, 0, oid) && (Has(ix, 1, oid) || Has(ix, 2, oid) || Has(ix, 3, oid)))
  }

  /** The documented rule holds for every object id. */
  ghost predicate Invariant(ix: GitIndex) {
    forall oid :: Exclusive(ix, oid)
  }

  /** The index with stage `s` replaced by `t`. */
  function Update(ix: GitIndex, s: nat, t: Table<IndexEntry>): GitIndex
    requires s < 4
  {
    ix.(stages := ix.stages[s := t])
  }

  /** `stages[s][oid] = e`. */
  function PutAt(ix: GitIndex, s: nat, oid: Oid, e: IndexEntry): (r: GitIndex)
    requires s < 4
    ensures r.version == ix.version
    ensures Find(r.stages[s], oid) == Some(e)
    ensures r.stages[s] == Put(ix.stages[s], oid, e)
    ensures forall j :: 0 <= j < 4 && j != s ==> r.stages[j] == ix.stages[j]
  {
    Update(ix, s, Put(ix.stages[s], oid, e))
  }

  /** `del stages[s][oid]`: `KeyError` and no change when `oid` is absent. */
  function DelAt(ix: GitIndex, s: nat, oid: Oid): (r: Outcome)
    requires s < 4
    ensures r.result.Success? <==> Has(ix, s, oid)
    ensures r.result.Failure? ==> r.result.error == KeyError(oid) && r.state == ix
    ensures r.result.Success? ==> r.state == Update(ix, s, Remove(ix.stages[s], oid))
    ensures !Has(r.state, s, oid)
  {
    if Has(ix, s, oid) then Outcome(Success(()), Update(ix, s, Remove(ix.stages[s], oid)))
    else Outcome(Failure(KeyError(oid)), ix)
  }

  /** The first stage at or after `from` that lacks `oid`, or 4 when there is none. */
  function FirstMissing(ix: GitIndex, from: nat, oid: Oid): (r: nat)
    requires from <= 4
    ensures from <= r <= 4
    ensures forall s :: from <= s < r ==> Has(ix, s, oid)
    ensures r < 4 ==> !Has(ix, r, oid)
    decreases 4 - from
  {
    if from == 4 || !Has(ix, from, oid) then from else FirstMissing(ix, from + 1, oid)
  }

  /** `FirstMissing` only looks at the stages from `from` on. */
  lemma {:induction false} FirstMissingFrame(ix: GitIndex, ix': GitIndex, from: nat, oid: Oid)
    requires from <= 4
    requires forall s :: from <= s < 4 ==> ix.stages[s] == ix'.stages[s]
    ensures FirstMissing(ix, from, oid) == FirstMissing(ix', from, oid)
    decreases 4 - from
  {
    if from < 4 {
      FirstMissingFrame(ix, ix', from + 1, oid);
    }
  }

  /**
   * `del stages[from][oid]; ...; del stages[3][oid]`, stopping at the first
   * stage that lacks `oid`.  The deletions made before the `KeyError` remain.
   */
  function DelChain(ix: GitIndex, from: nat, oid: Oid): (r: Outcome)
    requires from <= 4
    ensures r.result.Success? <==> FirstMissing(ix, from, oid) == 4
    ensures r.result.Failure? ==> r.result.error == KeyError(oid)
    ensures r.state.version == ix.version
    ensures forall s :: 0 <= s < 4 ==>
      r.state.stages[s] == if from <= s < FirstMissing(ix, from, oid)
                           then Remove(ix.stages[s], oid) else ix.stages[s]
    decreases 4 - from
  {
    if from == 4 then Outcome(Success(()), ix)
    else
      var o := DelAt(ix, from, oid);
      if o.result.Failure? then o
      else
        FirstMissingFrame(ix, o.state, from + 1, oid);
        DelChain(o.state, from + 1, oid)
  }

  /** `GitIndex(backend, version=version)`: only versions 2, 3 and 4 are accepted. */
  function NewIndex(version: int): (r: Result<GitIndex, PyError>)
    ensures r.Success? <==> version in {2, 3, 4}
    ensures r.Failure? ==> r.error == ValueError
    ensures r.Success? ==> r.value.version == version && Len(r.value) == 0
    ensures r.Success? ==> forall s, oid :: 0 <= s < 4 ==> !Has(r.value, s, oid)
  {
    if version !in {2, 3, 4} then Failure(ValueError)
    else Success(GitIndex(version, [EmptyStage, EmptyStage, EmptyStage, EmptyStage]))
  }

  /** `o` is what `t.get(oid, None)` returns. */
  predicate LookupOf(t: Table<IndexEntry>, oid: Oid, o: Option<IndexEntry>) {
    (o.None? <==> oid !in Keys(t)) && (o.Some? ==> Binding(oid, o.value) in t)
  }

  /** `index[a]`.  The `(stage, oid)` pattern only admits stages 0, 1 and 2. */
  function GetItem(ix: GitIndex, a: Address): (r: Result<Lookup, PyError>)
    ensures r.Success? <==> a.Bare? || a.AllStages? || (a.Pair? && 0 <= a.stage <= 2)
    ensures r.Failure? ==> r.error == AttributeError
    ensures r.Success? && a.Bare? ==> r.value.Single? && LookupOf(ix.stages[0], a.oid, r.value.entry)
    ensures r.Success? && a.Pair? ==> r.value.Single? && LookupOf(ix.stages[a.stage], a.oid, r.value.entry)
    ensures r.Success? && a.AllStages? ==>
      r.value.Quad? && |r.value.slots| == 4 &&
      forall s :: 0 <= s < 4 ==> LookupOf(ix.stages[s], a.oid, r.value.slots[s])
  {
    match a
    case Bare(oid) => Success(Single(Find(ix.stages[0], oid)))
    case Pair(s, oid) =>
      if 0 <= s <= 2 then Success(Single(Find(ix.stages[s], oid))) else Failure(AttributeError)
    case AllStages(oid) =>
      Success(Quad([Find(ix.stages[0], oid), Find(ix.stages[1], oid),
                    Find(ix.stages[2], oid), Find(ix.stages[3], oid)]))
    case OtherAddress => Failure(AttributeError)
  }

  /** `del index[a]`. */
  function DelItem(ix: GitIndex, a: Address): (r: Outcome)
    ensures r.state.version == ix.version
    ensures a.Pair? && 0 <= a.stage <= 3 ==>
      (r.result.Success? <==> Has(ix, a.stage, a.oid)) && !Has(r.state, a.stage, a.oid)
    ensures a.Bare? || a.AllStages? ==>
      (r.result.Success? <==> Has(ix, 0, a.oid) && Has(ix, 1, a.oid) && Has(ix, 2, a.oid) && Has(ix, 3, a.oid))
    ensures (a.OtherAddress? || (a.Pair? && !(0 <= a.stage <= 3))) ==>
      r == Outcome(Failure(AttributeError), ix)
  {
    match a
    case Bare(oid) => DelChain(ix, 0, oid)
    case Pair(s, oid) =>
      if 0 <= s <= 3 then DelAt(ix, s, oid) else Outcome(Failure(AttributeError), ix)
    case AllStages(oid) => DelChain(ix, 0, oid)
    case OtherAddress => Outcome(Failure(AttributeError), ix)
  }

  /** `index[s, oid] = v` for a stage `s` in 1..3. */
  function SetConflict(ix: GitIndex, s: nat, oid: Oid, v: Value): (r: Outcome)
    requires 1 <= s <= 3
    ensures !v.EntryVal? ==> r == Outcome(Failure(TypeError), ix)
    ensures v.EntryVal? ==> Find(r.state.stages[s], oid) == Some(v.entry) && !Has(r.state, 0, oid)
    ensures v.EntryVal? ==> (r.result.Success? <==> Has(ix, 0, oid))
    ensures r.result.Failure? && v.EntryVal? ==> r.result.error == KeyError(oid)
  {
    if !v.EntryVal? then Outcome(Failure(TypeError), ix)
    else DelAt(PutAt(ix, s, oid, v.entry), 0, oid)
  }

  /**
   * The loop `for s, e in zip(stages, entry)`, from stage `k` on: a `None`
   * slot deletes (raising `KeyError` if absent), an entry assigns.
   */
  function AssignSlots(ix: GitIndex, k: nat, oid: Oid, slots: seq<Option<IndexEntry>>): (r: Outcome)
    requires k <= 4 && |slots| == 4
    ensures r.state.version == ix.version
    ensures (forall j :: k <= j < 4 ==> slots[j].Some?) ==>
      r.result.Success? &&
      forall j :: 0 <= j < 4 ==>
        r.state.stages[j] == if k <= j then Put(ix.stages[j], oid, slots[j].value) else ix.stages[j]
    decreases 4 - k
  {
    if k == 4 then Outcome(Success(()), ix)
    else
      match slots[k]
      case None =>
        var o := DelAt(ix, k, oid);
        if o.result.Failure? then o else AssignSlots(o.state, k + 1, oid, slots)
      case Some(e) => AssignSlots(PutAt(ix, k, oid, e), k + 1, oid, slots)
  }

  /** The value is a 4-tuple whose every slot is an `IndexEntry`. */
  predicate IsEntryQuad(v: Value) {
    v.TupleVal? && |v.slots| == 4 && forall j :: 0 <= j < 4 ==> v.slots[j].Some?
  }

  /**
   * `index[..., oid] = v`: `ValueError` when `oid` is already in stage 0 and
   * in one of stages 1-3, then `TypeError` unless `v` is a 4-tuple of entries.
   */
  function SetAll(ix: GitIndex, oid: Oid, v: Value): (r: Outcome)
    ensures !Exclusive(ix, oid) ==> r == Outcome(Failure(ValueError), ix)
    ensures Exclusive(ix, oid) && !IsEntryQuad(v) ==> r == Outcome(Failure(TypeError), ix)
    ensures r.result.Success? <==> Exclusive(ix, oid) && IsEntryQuad(v)
    ensures r.result.Success? ==>
      r.state.version == ix.version &&
      forall j :: 0 <= j < 4 ==> r.state.stages[j] == Put(ix.stages[j], oid, v.slots[j].value)
  {
    if !Exclusive(ix, oid) then Outcome(Failure(ValueError), ix)
    else if !IsEntryQuad(v) then Outcome(Failure(TypeError), ix)
    else AssignSlots(ix, 0, oid, v.slots)
  }

  /** `index[0, oid] = v`. */
  function SetClean(ix: GitIndex, oid: Oid, v: Value): (r: Outcome)
    ensures !Truthy(v) ==> r == DelAt(ix, 0, oid)
    ensures Truthy(v) && !v.EntryVal? ==> r == Outcome(Failure(TypeError), ix)
    ensures v.EntryVal? ==> Find(r.state.stages[0], oid) == Some(v.entry)
    ensures v.EntryVal? ==> (r.result.Success? <==> Has(ix, 1, oid) && Has(ix, 2, oid) && Has(ix, 3, oid))
  {
    if !Truthy(v) then DelAt(ix, 0, oid)
    else if !v.EntryVal? then Outcome(Failure(TypeError), ix)
    else
      var ix' := PutAt(ix, 0, oid, v.entry);
      FirstMissingFrame(ix, ix', 1, oid);
      DelChain(ix', 1, oid)
  }

  /** `index[a] = v`. */
  function SetItem(ix: GitIndex, a: Address, v: Value): (r: Outcome)
    ensures r.state.version == ix.version
    ensures (a.OtherAddress? || (a.Pair? && !(0 <= a.stage <= 3))) ==>
      r == Outcome(Failure(AttributeError), ix)
  {
    match a
    case Pair(s, oid) =>
      if 1 <= s <= 3 then SetConflict(ix, s, oid, v)
      else if s == 0 then SetClean(ix, oid, v)
      else Outcome(Failure(AttributeError), ix)
    case AllStages(oid) => SetAll(ix, oid, v)
    case Bare(oid) =>
      if !v.EntryVal? then Outcome(Failure(TypeError), ix)
      else SetAll(ix, oid, TupleVal([Some(v.entry), None, None, None]))
    case OtherAddress => Outcome(Failure(AttributeError), ix)
  }

  /** The pairs `(s, e)` for the entries `e` of one stage, in insertion order. */
  function Tagged(s: int, es: seq<IndexEntry>): (r: seq<(int, IndexEntry)>)
    ensures |r| == |es|
    ensures forall i :: 0 <= i < |es| ==> r[i] == (s, es[i])
  {
    seq(|es|, i requires 0 <= i < |es| => (s, es[i]))
  }

  /** `list(iter(index))`: every stage-0 entry, then stages 1, 2 and 3. */
  function Iterate(ix: GitIndex): seq<(int, IndexEntry)> {
    Tagged(0, Values(ix.stages[0])) + Tagged(1, Values(ix.stages[1]))
      + Tagged(2, Values(ix.stages[2])) + Tagged(3, Values(ix.stages[3]))
  }

  /** `index.ls_files(unmerged)`: the names in stage 0, or in every stage. */
  function LsFiles(ix: GitIndex, unmerged: bool): set<string> {
    set s, i | 0 <= s < 4 && (unmerged || s == 0) && 0 <= i < |ix.stages[s]| :: ix.stages[s][i].value.name
  }

  /** `index.len()`: the sizes of the four stages, summed. */
  function Len(ix: GitIndex): nat {
    |ix.stages[0]| + |ix.stages[1]| + |ix.stages[2]| + |ix.stages[3]|
  }
}

=== FILE: index_intended.dfy ===
/**
 * The staging index as its docstring describes it, with the defects of the
 * written code corrected:
 *
 * - `index[3, oid]` reads stage 3, as `index[0..2, oid]` read theirs;
 * - a tuple slot may be `None`, which deletes `oid` from that stage, so that
 *   `index[oid] = e` promotes `e` to stage 0 and clears stages 1-3;
 * - deleting an absent key is a no-op, so no write stops half-way;
 * - `index[..., oid] = t` rejects a tuple `t` that would itself put `oid` in
 *   stage 0 and in one of stages 1-3, instead of inspecting the old state.
 *
 * With these corrections every read, write and delete keeps the documented
 * rule that a file in stage 0 is in none of stages 1-3.
 */
module IndexIntended {
  import opened Wrappers
  import opened StageTable
  import opened Index
  import IndexProps

  /** `stages[s].pop(oid, None)`: an absent key is left alone. */
  function DropAt(ix: GitIndex, s: nat, oid: Oid): (r: GitIndex)
    requires s < 4
    ensures r.version == ix.version
    ensures !Has(r, s, oid)
    ensures r.stages[s] == Remove(ix.stages[s], oid)
    ensures forall j :: 0 <= j < 4 && j != s ==> r.stages[j] == ix.stages[j]
  {
    Update(ix, s, Remove(ix.stages[s], oid))
  }

  /** One slot of an all-stages write: an entry assigns, `None` deletes. */
  function Assign(ix: GitIndex, s: nat, oid: Oid, slot: Option<IndexEntry>): GitIndex
    requires s < 4
  {
    match slot
    case Some(e) => PutAt(ix, s, oid, e)
    case None => DropAt(ix, s, oid)
  }

  /** `for s in stages[from:]: s.pop(oid, None)`. */
  function DropFrom(ix: GitIndex, from: nat, oid: Oid): (r: GitIndex)
    requires from <= 4
    ensures r.version == ix.version
    ensures forall j :: 0 <= j < 4 ==>
      r.stages[j] == if j < from then ix.stages[j] else Remove(ix.stages[j], oid)
    decreases 4 - from
  {
    if from == 4 then ix else DropFrom(DropAt(ix, from, oid), from + 1, oid)
  }

  /**
   * `stages[0][oid] = e`, then `oid` popped from stages 1-3: the corrected
   * promotion of a resolved file.
   */
  function Promote(ix: GitIndex, oid: Oid, e: IndexEntry): (r: GitIndex)
    ensures r.version == ix.version
    ensures Find(r.stages[0], oid) == Some(e)
    ensures forall j :: 1 <= j < 4 ==> !Has(r, j, oid)
    ensures r.stages[0] == Put(ix.stages[0], oid, e)
    ensures forall j :: 1 <= j < 4 ==> r.stages[j] == Remove(ix.stages[j], oid)
  {
    DropFrom(PutAt(ix, 0, oid, e), 1, oid)
  }

  /** Assigns the slots of a 4-tuple to the stages `k..3`. */
  function AssignFrom(ix: GitIndex, k: nat, oid: Oid, slots: seq<Option<IndexEntry>>): (r: GitIndex)
    requires k <= 4 && |slots| == 4
    ensures r.version == ix.version
    ensures forall j :: 0 <= j < 4 ==>
      r.stages[j] == if j < k then ix.stages[j]
                     else if slots[j].Some? then Put(ix.stages[j], oid, slots[j].value)
                     else Remove(ix.stages[j], oid)
    decreases 4 - k
  {
    if k == 4 then ix else AssignFrom(Assign(ix, k, oid, slots[k]), k + 1, oid, slots)
  }

  /** The tuple would put `oid` in stage 0 and in one of stages 1-3. */
  predicate Conflicting(slots: seq<Option<IndexEntry>>)
    requires |slots| == 4
  {
    slots[0].Some? && (slots[1].Some? || slots[2].Some? || slots[3].Some?)
  }

  /** `index[..., oid] = v`, corrected. */
  function SetAll(ix: GitIndex, oid: Oid, v: Value): (r: Outcome)
    ensures !(v.TupleVal? && |v.slots| == 4) ==> r == Outcome(Failure(TypeError), ix)
    ensures v.ForeignTupleVal? ==> r == Outcome(Failure(TypeError), ix)
    ensures v.TupleVal? && |v.slots| == 4 && Conflicting(v.slots) ==> r == Outcome(Failure(ValueError), ix)
    ensures r.result.Success? <==> v.TupleVal? && |v.slots| == 4 && !Conflicting(v.slots)
    ensures r.result.Success? ==>
      forall j :: 0 <= j < 4 ==> (Has(r.state, j, oid) <==> v.slots[j].Some?)
    ensures r.result.Success? ==>
      forall j :: 0 <= j < 4 ==>
        r.state.stages[j] == if v.slots[j].Some? then Put(ix.stages[j], oid, v.slots[j].value)
                             else Remove(ix.stages[j], oid)
  {
    if !(v.TupleVal? && |v.slots| == 4) then Outcome(Failure(TypeError), ix)
    else if Conflicting(v.slots) then Outcome(Failure(ValueError), ix)
    else Outcome(Success(()), AssignFrom(ix, 0, oid, v.slots))
  }

  /** `index[a] = v`, corrected. */
  function SetItem(ix: GitIndex, a: Address, v: Value): (r: Outcome)
    ensures r.state.version == ix.version
    ensures r.result.Failure? ==> r.state == ix
    ensures (a.OtherAddress? || (a.Pair? && !(0 <= a.stage <= 3))) ==>
      r == Outcome(Failure(AttributeError), ix)
    ensures a.Pair? && 0 <= a.stage <= 3 && v.EntryVal? ==>
      r.result.Success? && Find(r.state.stages[a.stage], a.oid) == Some(v.entry)
    ensures a.Pair? && 1 <= a.stage <= 3 && v.EntryVal? ==>
      forall j :: 0 <= j < 4 ==>
        r.state.stages[j] == if j == a.stage then Put(ix.stages[j], a.oid, v.entry)
                             else if j == 0 then Remove(ix.stages[0], a.oid)
                             else ix.stages[j]
    ensures a.Pair? && a.stage == 0 && !Truthy(v) ==>
      r == Outcome(Success(()), Update(ix, 0, Remove(ix.stages[0], a.oid)))
  {
    match a
    case Pair(s, oid) =>
      if 1 <= s <= 3 then
        if !v.EntryVal? then Outcome(Failure(TypeError), ix)
        else Outcome(Success(()), DropAt(PutAt(ix, s, oid, v.entry), 0, oid))
      else if s == 0 then
        if !Truthy(v) then Outcome(Success(()), DropAt(ix, 0, oid))
        else if !v.EntryVal? then Outcome(Failure(TypeError), ix)
        else Outcome(Success(()), Promote(ix, oid, v.entry))
      else Outcome(Failure(AttributeError), ix)
    case AllStages(oid) => SetAll(ix, oid, v)
    case Bare(oid) =>
      if !v.EntryVal? then Outcome(Failure(TypeError), ix)
      else SetAll(ix, oid, TupleVal([Some(v.entry), None, None, None]))
    case OtherAddress => Outcome(Failure(AttributeError), ix)
  }

  /** `del index[a]`, corrected: deleting an absent key is a no-op. */
  function DelItem(ix: GitIndex, a: Address): (r: Outcome)
    ensures r.state.version == ix.version
    ensures r.result.Success? <==> !a.OtherAddress? && !(a.Pair? && !(0 <= a.stage <= 3))
    ensures r.result.Success? && !a.Pair? ==> forall j :: 0 <= j < 4 ==> !Has(r.state, j, a.oid)
    ensures r.result.Success? && a.Pair? ==>
      !Has(r.state, a.stage, a.oid) &&
      forall j :: 0 <= j < 4 && j != a.stage ==> r.state.stages[j] == ix.stages[j]
    ensures r.result.Success? && a.Pair? ==> r.state.stages[a.stage] == Remove(ix.stages[a.stage], a.oid)
    ensures r.result.Success? && !a.Pair? ==>
      forall j :: 0 <= j < 4 ==> r.state.stages[j] == Remove(ix.stages[j], a.oid)
  {
    match a
    case Bare(oid) => Outcome(Success(()), DropFrom(ix, 0, oid))
    case Pair(s, oid) =>
      if 0 <= s <= 3 then Outcome(Success(()), DropAt(ix, s, oid)) else Outcome(Failure(AttributeError), ix)
    case AllStages(oid) => Outcome(Success(()), DropFrom(ix, 0, oid))
    case OtherAddress => Outcome(Failure(AttributeError), ix)
  }

  /** `index[a]`, corrected: `(stage, oid)` admits every stage 0-3. */
  function GetItem(ix: GitIndex, a: Address): (r: Result<Lookup, PyError>)
    ensures r.Success? <==> a.Bare? || a.AllStages? || (a.Pair? && 0 <= a.stage <= 3)
    ensures r.Failure? ==> r.error == AttributeError
    ensures r.Success? && a.Bare? ==> r.value.Single? && LookupOf(ix.stages[0], a.oid, r.value.entry)
    ensures r.Success? && a.Pair? ==> r.value.Single? && LookupOf(ix.stages[a.stage], a.oid, r.value.entry)
    ensures r.Success? && a.AllStages? ==>
      r.value.Quad? && |r.value.slots| == 4 &&
      forall s :: 0 <= s < 4 ==> LookupOf(ix.stages[s], a.oid, r.value.slots[s])
  {
    match a
    case Pair(s, oid) =>
      if 0 <= s <= 3 then Success(Single(Find(ix.stages[s], oid))) else Failure(AttributeError)
    case _ => Index.GetItem(ix, a)
  }

  // ---------------------------------------------------------------------------
  // Properties

  /** Every stage, stage 3 included, reads back through `(stage, oid)`. */
  lemma ReadEveryStage(ix: GitIndex, oid: Oid)
    ensures forall s :: 0 <= s < 4 ==>
      GetItem(ix, Pair(s, oid)).value.entry == GetItem(ix, AllStages(oid)).value.slots[s]
  {
  }

  /** The corrected writes keep the documented rule, whatever the outcome. */
  lemma SetItemKeepsInvariant(ix: GitIndex, a: Address, v: Value)
    requires Invariant(ix)
    ensures Invariant(SetItem(ix, a, v).state)
  {
    var r := SetItem(ix, a, v);
    if r.result.Success? {
      var oid := a.oid;
      SetItemAgreesOff(ix, a, v);
      IndexProps.AgreeOffKeepsOthers(ix, r.state, oid);
      SetItemExclusive(ix, a, v);
    }
  }

  lemma SetItemAgreesOff(ix: GitIndex, a: Address, v: Value)
    requires SetItem(ix, a, v).result.Success?
    ensures !a.OtherAddress? && IndexProps.AgreeOff(ix, SetItem(ix, a, v).state, a.oid)
  {
    match a
    case Pair(s, oid) =>
      if 1 <= s <= 3 {
        ConflictAgreesOff(ix, s, oid, v.entry);
      } else if !Truthy(v) {
        DropAtAgreesOff(ix, 0, oid);
      } else {
        PromoteAgreesOff(ix, oid, v.entry);
      }
    case AllStages(oid) => AssignFromAgreesOff(ix, 0, oid, v.slots);
    case Bare(oid) => AssignFromAgreesOff(ix, 0, oid, [Some(v.entry), None, None, None]);
  }

  lemma ConflictAgreesOff(ix: GitIndex, s: nat, oid: Oid, e: IndexEntry)
    requires 1 <= s <= 3
    ensures IndexProps.AgreeOff(ix, DropAt(PutAt(ix, s, oid, e), 0, oid), oid)
  {
  }

  lemma DropAtAgreesOff(ix: GitIndex, s: nat, oid: Oid)
    requires s < 4
    ensures IndexProps.AgreeOff(ix, DropAt(ix, s, oid), oid)
  {
  }

  lemma PromoteAgreesOff(ix: GitIndex, oid: Oid, e: IndexEntry)
    ensures IndexProps.AgreeOff(ix, Promote(ix, oid, e), oid)
  {
  }

  lemma AssignFromAgreesOff(ix: GitIndex, k: nat, oid: Oid, slots: seq<Option<IndexEntry>>)
    requires k <= 4 && |slots| == 4
    ensures IndexProps.AgreeOff(ix, AssignFrom(ix, k, oid, slots), oid)
  {
  }

  lemma SetItemExclusive(ix: GitIndex, a: Address, v: Value)
    requires SetItem(ix, a, v).result.Success?
    ensures !a.OtherAddress? && Exclusive(SetItem(ix, a, v).state, a.oid)
  {
    var r := SetItem(ix, a, v);
    match a
    case Pair(s, oid) =>
      if s == 0 && Truthy(v) {
        assert forall j :: 1 <= j < 4 ==> !Has(r.state, j, oid);
      }
    case AllStages(oid) =>
    case Bare(oid) =>
  }

  /** The corrected deletes keep the documented rule. */
  lemma DelItemKeepsInvariant(ix: GitIndex, a: Address)
    requires Invariant(ix)
    ensures Invariant(DelItem(ix, a).state)
  {
    match a
    case Bare(oid) => ClearAllShrinks(ix, oid);
    case AllStages(oid) => ClearAllShrinks(ix, oid);
    case Pair(s, oid) =>
      if 0 <= s <= 3 {
        DropAtShrinks(ix, s, oid);
      }
    case OtherAddress =>
  }

  /** Clearing `oid` from every stage removes it and keeps every other key. */
  lemma ClearAllShrinks(ix: GitIndex, oid: Oid)
    requires Invariant(ix)
    ensures IndexProps.Shrinks(ix, DropFrom(ix, 0, oid)) && Invariant(DropFrom(ix, 0, oid))
  {
    IndexProps.ShrinksKeepsInvariant(ix, DropFrom(ix, 0, oid));
  }

  lemma DropAtShrinks(ix: GitIndex, s: nat, oid: Oid)
    requires s < 4 && Invariant(ix)
    ensures IndexProps.Shrinks(ix, DropAt(ix, s, oid)) && Invariant(DropAt(ix, s, oid))
  {
    IndexProps.ShrinksKeepsInvariant(ix, DropAt(ix, s, oid));
  }

  /**
   * `index[oid] = e` promotes `e` to stage 0 and clears stages 1-3, so that
   * `index[..., oid]` reads `(e, None, None, None)`; doing it twice is the
   * same as doing it once.
   */
  lemma PromoteClears(ix: GitIndex, oid: Oid, e: IndexEntry)
    ensures var r := SetItem(ix, Bare(oid), EntryVal(e));
      && r.result.Success?
      && GetItem(r.state, AllStages(oid)) == Success(Quad([Some(e), None, None, None]))
      && SetItem(r.state, Bare(oid), EntryVal(e)) == r
  {
    var p := Promote(ix, oid, e);
    PromoteWrites(ix, oid, e);
    PromoteWrites(p, oid, e);
    PromoteIdempotent(ix, oid, e);
    PromoteReads(ix, oid, e);
  }

  /** `index[oid] = e` delegates the slots `(e, None, None, None)`, which promote `e`. */
  lemma PromoteWrites(ix: GitIndex, oid: Oid, e: IndexEntry)
    ensures SetItem(ix, Bare(oid), EntryVal(e)) == Outcome(Success(()), Promote(ix, oid, e))
  {
    BareDelegates(ix, oid, e);
    AssignPromote(ix, oid, e);
  }

  lemma BareDelegates(ix: GitIndex, oid: Oid, e: IndexEntry)
    ensures SetItem(ix, Bare(oid), EntryVal(e))
      == Outcome(Success(()), AssignFrom(ix, 0, oid, [Some(e), None, None, None]))
  {
  }

  lemma AssignPromote(ix: GitIndex, oid: Oid, e: IndexEntry)
    ensures AssignFrom(ix, 0, oid, [Some(e), None, None, None]) == Promote(ix, oid, e)
  {
    var a := AssignFrom(ix, 0, oid, [Some(e), None, None, None]);
    var p := Promote(ix, oid, e);
    var ix' := PutAt(ix, 0, oid, e);
    forall j | 0 <= j < 4 ensures a.stages[j] == p.stages[j] {
      if j == 0 {
        assert a.stages[0] == Put(ix.stages[0], oid, e);
        assert p.stages[0] == ix'.stages[0];
      } else {
        assert a.stages[j] == Remove(ix.stages[j], oid);
        assert p.stages[j] == Remove(ix'.stages[j], oid);
      }
    }
    assert a.stages == p.stages;
  }

  /** After a promotion, `index[..., oid]` reads `(e, None, None, None)`. */
  lemma PromoteReads(ix: GitIndex, oid: Oid, e: IndexEntry)
    ensures GetItem(Promote(ix, oid, e), AllStages(oid)) == Success(Quad([Some(e), None, None, None]))
  {
    var p := Promote(ix, oid, e);
    assert GetItem(p, AllStages(oid)).value.slots == [Some(e), None, None, None];
  }

  /** Promoting the same entry twice is promoting it once. */
  lemma PromoteIdempotent(ix: GitIndex, oid: Oid, e: IndexEntry)
    ensures Promote(Promote(ix, oid, e), oid, e) == Promote(ix, oid, e)
  {
    var p1 := Promote(ix, oid, e);
    var p2 := Promote(p1, oid, e);
    IndexProps.PutPresent(p1.stages[0], oid, e);
    forall j | 0 <= j < 4 ensures p2.stages[j] == p1.stages[j] {
      if j > 0 {
        assert !Has(p1, j, oid);
      }
    }
    assert p2.stages == p1.stages;
  }

  /**
   * Round trip: an admissible `index[..., oid] = t` reads back as exactly
   * `t`, `None` slots included.
   */
  lemma SetAllRoundTrip(ix: GitIndex, oid: Oid, slots: seq<Option<IndexEntry>>)
    requires |slots| == 4 && !Conflicting(slots)
    ensures var r := SetItem(ix, AllStages(oid), TupleVal(slots));
      r.result.Success? && GetItem(r.state, AllStages(oid)) == Success(Quad(slots))
  {
    var r := SetItem(ix, AllStages(oid), TupleVal(slots));
    assert GetItem(r.state, AllStages(oid)).value.slots == slots;
  }

  /** `index[..., oid] = (e0, e1, None, None)` is rejected and changes nothing. */
  lemma ConflictRejected(ix: GitIndex, oid: Oid, e0: IndexEntry, e1: IndexEntry)
    ensures SetItem(ix, AllStages(oid), TupleVal([Some(e0), Some(e1), None, None]))
      == Outcome(Failure(ValueError), ix)
  {
  }

  /**
   * A tuple with an item that is neither an entry nor `None` raises
   * `TypeError` and changes nothing, in the corrected write as in the code
   * once the code's stage check has passed.
   */
  lemma ForeignSlotRejected(ix: GitIndex, oid: Oid)
    ensures SetItem(ix, AllStages(oid), ForeignTupleVal) == Outcome(Failure(TypeError), ix)
    ensures Exclusive(ix, oid) ==>
      Index.SetItem(ix, AllStages(oid), ForeignTupleVal) == Outcome(Failure(TypeError), ix)
  {
  }

  /** Deleting a key that none of the addressed stages holds changes nothing. */
  lemma DelAbsentIsNoOp(ix: GitIndex, a: Address)
    requires a.Bare? || a.AllStages? || (a.Pair? && 0 <= a.stage <= 3)
    requires a.Pair? ==> !Has(ix, a.stage, a.oid)
    requires !a.Pair? ==> forall j :: 0 <= j < 4 ==> !Has(ix, j, a.oid)
    ensures DelItem(ix, a) == Outcome(Success(()), ix)
  {
    var r := DelItem(ix, a);
    forall j | 0 <= j < 4 ensures r.state.stages[j] == ix.stages[j] {
      if a.Pair? && j != a.stage {
      } else {
        assert !Has(ix, j, a.oid);
        assert Remove(ix.stages[j], a.oid) == ix.stages[j];
      }
    }
    assert r.state.stages == ix.stages;
  }

  /** `del index[a]` twice leaves the index as `del index[a]` once. */
  lemma DelItemIdempotent(ix: GitIndex, a: Address)
    ensures DelItem(DelItem(ix, a).state, a) == DelItem(ix, a)
  {
    match a
    case Bare(oid) => ClearAllIdempotent(ix, oid);
    case AllStages(oid) => ClearAllIdempotent(ix, oid);
    case Pair(s, oid) =>
      if 0 <= s <= 3 {
        DropAtIdempotent(ix, s, oid);
      }
    case OtherAddress =>
  }

  lemma ClearAllIdempotent(ix: GitIndex, oid: Oid)
    ensures DropFrom(DropFrom(ix, 0, oid), 0, oid) == DropFrom(ix, 0, oid)
  {
    var r1 := DropFrom(ix, 0, oid);
    var r2 := DropFrom(r1, 0, oid);
    forall j | 0 <= j < 4 ensures r2.stages[j] == r1.stages[j] {
      assert r2.stages[j] == Remove(r1.stages[j], oid);
    }
    assert r2.stages == r1.stages;
  }

  lemma DropAtIdempotent(ix: GitIndex, s: nat, oid: Oid)
    requires s < 4
    ensures DropAt(DropAt(ix, s, oid), s, oid) == DropAt(ix, s, oid)
  {
    var r1 := DropAt(ix, s, oid);
    assert Remove(r1.stages[s], oid) == r1.stages[s];
    assert r1.stages[s := r1.stages[s]] == r1.stages;
  }
}

=== FILE: index_props.dfy ===
/**
 * Properties of the staging index as written: what each address shape does,
 * which writes keep the documented stage-0 / stages-1..3 exclusivity, and
 * where the code departs from its own documentation.
 */
module IndexProps {
  import opened Wrappers
  import opened StageTable
  import opened Index

  // ---------------------------------------------------------------------------
  // Frame helpers

  /** Every stage of `ix'` has at most the keys of the same stage of `ix`. */
  predicate Shrinks(ix: GitIndex, ix': GitIndex) {
    forall j :: 0 <= j < 4 ==> Keys(ix'.stages[j]) <= Keys(ix.stages[j])
  }

  /** `ix` and `ix'` have the same keys in every stage, apart from `oid`. */
  predicate AgreeOff(ix: GitIndex, ix': GitIndex, oid: Oid) {
    forall j :: 0 <= j < 4 ==> Keys(ix.stages[j]) - {oid} == Keys(ix'.stages[j]) - {oid}
  }

  lemma ShrinksKeepsInvariant(ix: GitIndex, ix': GitIndex)
    requires Shrinks(ix, ix') && Invariant(ix)
    ensures Invariant(ix')
  {
    forall o ensures Exclusive(ix', o) {
      assert Exclusive(ix, o);
    }
  }

  lemma AgreeOffKeepsOthers(ix: GitIndex, ix': GitIndex, oid: Oid)
    requires AgreeOff(ix, ix', oid) && Invariant(ix)
    ensures forall o :: o != oid ==> Exclusive(ix', o)
  {
    forall o | o != oid ensures Exclusive(ix', o) {
      assert Exclusive(ix, o);
      forall j | 0 <= j < 4 ensures Has(ix, j, o) <==> Has(ix', j, o) {
        assert o in Keys(ix.stages[j]) <==> o in Keys(ix.stages[j]) - {oid};
        assert o in Keys(ix'.stages[j]) <==> o in Keys(ix'.stages[j]) - {oid};
      }
    }
  }

  lemma DelChainShrinks(ix: GitIndex, from: nat, oid: Oid)
    requires from <= 4
    ensures Shrinks(ix, DelChain(ix, from, oid).state)
    ensures AgreeOff(ix, DelChain(ix, from, oid).state, oid)
  {
  }

  // ---------------------------------------------------------------------------
  // Construction

  /** Versions 2, 3 and 4 construct an empty index (3 is the default); 5 does not. */
  lemma VersionValidation()
    ensures NewIndex(DefaultVersion).Success?
    ensures NewIndex(2).Success? && NewIndex(4).Success?
    ensures NewIndex(5) == Failure(ValueError)
    ensures Iterate(NewIndex(DefaultVersion).value) == []
    ensures Iterate(NewIndex(2).value) == [] && Iterate(NewIndex(4).value) == []
  {
  }

  // ---------------------------------------------------------------------------
  // Reads

  /**
   * The three read shapes agree on stages 0-2; `index[3, oid]`, which the
   * docstring promises, raises `AttributeError` although `index[..., oid]`
   * reports stage 3.
   */
  lemma ReadShapesAgree(ix: GitIndex, oid: Oid)
    ensures GetItem(ix, Bare(oid)) == GetItem(ix, Pair(0, oid))
    ensures forall s :: 0 <= s <= 2 ==>
      GetItem(ix, Pair(s, oid)).value.entry == GetItem(ix, AllStages(oid)).value.slots[s]
    ensures GetItem(ix, Pair(3, oid)) == Failure(AttributeError)
    ensures GetItem(ix, AllStages(oid)).value.slots[3].Some? <==> Has(ix, 3, oid)
  {
  }

  // ---------------------------------------------------------------------------
  // Writes to one of stages 1-3

  /**
   * `index[s, oid] = e` for s in 1..3 sets stage s, then deletes `oid` from
   * stage 0; a missing stage-0 key raises `KeyError` with stage s already set.
   * A non-entry raises `TypeError` and changes nothing.
   */
  lemma SetConflictOutcome(ix: GitIndex, s: nat, oid: Oid, v: Value)
    requires 1 <= s <= 3
    ensures var r := SetItem(ix, Pair(s, oid), v);
      && (!v.EntryVal? ==> r == Outcome(Failure(TypeError), ix))
      && (v.EntryVal? && Has(ix, 0, oid) ==>
            r.result.Success? && r.state == Update(PutAt(ix, s, oid, v.entry), 0, Remove(ix.stages[0], oid)))
      && (v.EntryVal? && !Has(ix, 0, oid) ==>
            r == Outcome(Failure(KeyError(oid)), PutAt(ix, s, oid, v.entry)))
  {
  }

  /** Whatever the outcome, a write to one of stages 1-3 keeps the documented rule. */
  lemma SetConflictKeepsInvariant(ix: GitIndex, s: nat, oid: Oid, v: Value)
    requires 1 <= s <= 3 && Invariant(ix)
    ensures Invariant(SetItem(ix, Pair(s, oid), v).state)
  {
    var r := SetItem(ix, Pair(s, oid), v);
    if v.EntryVal? {
      assert AgreeOff(ix, r.state, oid);
      AgreeOffKeepsOthers(ix, r.state, oid);
      assert !Has(r.state, 0, oid);
    }
  }

  /**
   * Stage isolation for `index[2, oid] = e` from a state where `oid` is in
   * stage 0: stage 2 now reads `e`, stage 0 reads nothing, stage 1 is
   * untouched, and stage 3 cannot be read back at all.
   */
  lemma StageIsolation(ix: GitIndex, oid: Oid, e: IndexEntry)
    requires Has(ix, 0, oid)
    ensures var r := SetItem(ix, Pair(2, oid), EntryVal(e));
      && r.result.Success?
      && GetItem(r.state, Pair(2, oid)) == Success(Single(Some(e)))
      && GetItem(r.state, Pair(0, oid)) == Success(Single(None))
      && GetItem(r.state, Pair(1, oid)) == GetItem(ix, Pair(1, oid))
      && GetItem(r.state, Pair(3, oid)) == Failure(AttributeError)
  {
  }

  // ---------------------------------------------------------------------------
  // Writes to stage 0

  /**
   * `index[0, oid] = e` sets stage 0, then deletes `oid` from stages 1, 2 and
   * 3 in order, stopping with `KeyError` at the first stage that lacks it.
   */
  lemma SetCleanOutcome(ix: GitIndex, oid: Oid, e: IndexEntry)
    ensures var r := SetItem(ix, Pair(0, oid), EntryVal(e));
      var stop := FirstMissing(ix, 1, oid);
      && (r.result.Success? <==> Has(ix, 1, oid) && Has(ix, 2, oid) && Has(ix, 3, oid))
      && (r.result.Failure? ==> r.result.error == KeyError(oid))
      && Find(r.state.stages[0], oid) == Some(e)
      && r.state.stages[0] == Put(ix.stages[0], oid, e)
      && forall j :: 1 <= j < 4 ==>
           r.state.stages[j] == if j < stop then Remove(ix.stages[j], oid) else ix.stages[j]
  {
    var ix' := PutAt(ix, 0, oid, EntryVal(e).entry);
    FirstMissingFrame(ix, ix', 1, oid);
  }

  /** A falsy value written to `(0, oid)` deletes from stage 0 only. */
  lemma SetCleanFalsy(ix: GitIndex, oid: Oid, v: Value)
    requires !Truthy(v)
    ensures var r := SetItem(ix, Pair(0, oid), v);
      && (r.result.Success? <==> Has(ix, 0, oid))
      && (r.result.Success? ==> r.state == Update(ix, 0, Remove(ix.stages[0], oid)))
      && (r.result.Failure? ==> r == Outcome(Failure(KeyError(oid)), ix))
  {
  }

  /**
   * The code departs from its docstring: starting from an index that keeps
   * the documented rule, `index[0, oid] = e` can leave `oid` in stage 0 and
   * in stage 3 at once (it is in stages 1 and 3 but not 2, so the deletion
   * chain stops at stage 2).
   */
  lemma SetCleanBreaksExclusive(oid: Oid, e: IndexEntry)
    ensures var t: Table<IndexEntry> := [Binding(oid, e)];
      var ix := GitIndex(3, [EmptyStage, t, EmptyStage, t]);
      var r := SetItem(ix, Pair(0, oid), EntryVal(e));
      && Invariant(ix)
      && r.result == Failure(KeyError(oid))
      && Has(r.state, 0, oid) && Has(r.state, 3, oid)
      && !Invariant(r.state)
  {
    var t: Table<IndexEntry> := [Binding(oid, e)];
    var ix := GitIndex(3, [EmptyStage, t, EmptyStage, t]);
    KeysCons(t);
    assert t[1..] == [];
    assert Keys(t) == {oid};
    assert Keys(EmptyStage) == {};
    assert Invariant(ix) by {
      forall o ensures Exclusive(ix, o) {
        assert !Has(ix, 0, o);
      }
    }
    var r := SetItem(ix, Pair(0, oid), EntryVal(e));
    assert FirstMissing(ix, 1, oid) == 2;
    assert r.state.stages[3] == t;
    assert !Exclusive(r.state, oid);
  }

  /**
   * Writing the same entry twice to `(0, oid)` leaves the index as the first
   * write left it, and the second write always raises `KeyError`.
   */
  lemma CleanPromotionTwice(ix: GitIndex, oid: Oid, e: IndexEntry)
    ensures var r1 := SetItem(ix, Pair(0, oid), EntryVal(e));
      var r2 := SetItem(r1.state, Pair(0, oid), EntryVal(e));
      r2.state == r1.state && r2.result == Failure(KeyError(oid))
  {
    var r1 := SetItem(ix, Pair(0, oid), EntryVal(e));
    SetCleanOutcome(ix, oid, e);
    PutPresent(r1.state.stages[0], oid, e);
    assert PutAt(r1.state, 0, oid, e) == r1.state;
    assert !Has(r1.state, 1, oid);
  }

  /** Assigning a key the value it already has changes nothing. */
  lemma {:induction false} PutPresent(t: Table<IndexEntry>, k: Oid, v: IndexEntry)
    requires Find(t, k) == Some(v)
    ensures Put(t, k, v) == t
  {
    OverwriteSame(t, k, v);
  }

  lemma {:induction false} OverwriteSame(t: Table<IndexEntry>, k: Oid, v: IndexEntry)
    requires Binding(k, v) in t
    ensures Overwrite(t, k, v) == t
  {
    if |t| > 0 {
      var tail: Table<IndexEntry> := t[1..];
      if t[0].key == k {
        assert t[0] == Binding(k, v) by {
          var i :| 0 <= i < |t| && t[i] == Binding(k, v);
        }
        assert k !in Keys(tail) by { KeysCons(t); }
        OverwriteAbsent(tail, k, v);
      } else {
        assert Binding(k, v) in tail;
        OverwriteSame(tail, k, v);
      }
    }
  }

  lemma {:induction false} OverwriteAbsent(t: seq<Binding<IndexEntry>>, k: Oid, v: IndexEntry)
    requires k !in Keys(t)
    ensures Overwrite(t, k, v) == t
  {
    if |t| > 0 {
      KeysCons(t);
      OverwriteAbsent(t[1..], k, v);
    }
  }

  // ---------------------------------------------------------------------------
  // Writes to all stages and to a bare oid

  /** `index[..., oid] = v` when `oid` is already in stage 0 and in a stage 1-3. */
  lemma SetAllConflictRejected(ix: GitIndex, oid: Oid, v: Value)
    requires Has(ix, 0, oid) && (Has(ix, 1, oid) || Has(ix, 2, oid) || Has(ix, 3, oid))
    ensures SetItem(ix, AllStages(oid), v) == Outcome(Failure(ValueError), ix)
  {
  }

  /**
   * A 4-tuple with a `None` slot is rejected with no change, whatever the
   * index holds: the type check demands an entry in every slot.
   */
  lemma SetAllNoneSlotRejected(ix: GitIndex, oid: Oid, slots: seq<Option<IndexEntry>>)
    requires |slots| == 4 && exists j :: 0 <= j < 4 && slots[j].None?
    ensures var r := SetItem(ix, AllStages(oid), TupleVal(slots));
      r.state == ix && r.result.Failure? && r.result.error in {ValueError, TypeError}
  {
  }

  /**
   * Round trip: a successful `index[..., oid] = (e0, e1, e2, e3)` reads back
   * as exactly that tuple, and every other object id reads as before.
   */
  lemma SetAllRoundTrip(ix: GitIndex, oid: Oid, slots: seq<Option<IndexEntry>>)
    requires Exclusive(ix, oid)
    requires |slots| == 4 && forall j :: 0 <= j < 4 ==> slots[j].Some?
    ensures var r := SetItem(ix, AllStages(oid), TupleVal(slots));
      && r.result.Success?
      && GetItem(r.state, AllStages(oid)) == Success(Quad(slots))
      && forall o :: o != oid ==> GetItem(r.state, AllStages(o)) == GetItem(ix, AllStages(o))
  {
    var r := SetItem(ix, AllStages(oid), TupleVal(slots));
    assert r.result.Success? && forall j :: 0 <= j < 4 ==> r.state.stages[j] == Put(ix.stages[j], oid, slots[j].value);
    PutAllReadBack(ix, r.state, oid, slots);
  }

  /** Upserting `oid` into every stage: `oid` reads the slots, every other id reads as before. */
  lemma PutAllReadBack(ix: GitIndex, ix': GitIndex, oid: Oid, slots: seq<Option<IndexEntry>>)
    requires |slots| == 4 && forall j :: 0 <= j < 4 ==> slots[j].Some?
    requires forall j :: 0 <= j < 4 ==> ix'.stages[j] == Put(ix.stages[j], oid, slots[j].value)
    ensures GetItem(ix', AllStages(oid)) == Success(Quad(slots))
    ensures forall o :: o != oid ==> GetItem(ix', AllStages(o)) == GetItem(ix, AllStages(o))
  {
    PutAllReads(ix', oid, slots);
    forall o | o != oid ensures GetItem(ix', AllStages(o)) == GetItem(ix, AllStages(o)) {
      PutFindOther(ix.stages[0], ix'.stages[0], oid, slots[0].value, o);
      PutFindOther(ix.stages[1], ix'.stages[1], oid, slots[1].value, o);
      PutFindOther(ix.stages[2], ix'.stages[2], oid, slots[2].value, o);
      PutFindOther(ix.stages[3], ix'.stages[3], oid, slots[3].value, o);
      StagesAgreeAt(ix, ix', o);
    }
  }

  /** An index whose every stage finds `oid` at its slot reads `(..., oid)` as those slots. */
  lemma PutAllReads(ix': GitIndex, oid: Oid, slots: seq<Option<IndexEntry>>)
    requires |slots| == 4
    requires forall j :: 0 <= j < 4 ==> Find(ix'.stages[j], oid) == slots[j]
    ensures GetItem(ix', AllStages(oid)) == Success(Quad(slots))
  {
    var q := [Find(ix'.stages[0], oid), Find(ix'.stages[1], oid),
              Find(ix'.stages[2], oid), Find(ix'.stages[3], oid)];
    assert q == slots;
  }

  lemma PutFindOther(t: Table<IndexEntry>, t': Table<IndexEntry>, k: Oid, v: IndexEntry, o: Oid)
    requires t' == Put(t, k, v) && o != k
    ensures Find(t', o) == Find(t, o)
  {
  }

  /** Two indexes whose stages all look `o` up alike read `(..., o)` alike. */
  lemma StagesAgreeAt(ix: GitIndex, ix': GitIndex, o: Oid)
    requires Find(ix'.stages[0], o) == Find(ix.stages[0], o)
    requires Find(ix'.stages[1], o) == Find(ix.stages[1], o)
    requires Find(ix'.stages[2], o) == Find(ix.stages[2], o)
    requires Find(ix'.stages[3], o) == Find(ix.stages[3], o)
    ensures GetItem(ix', AllStages(o)) == GetItem(ix, AllStages(o))
  {
  }

  /**
   * The code departs from its docstring: the only way `index[..., oid] = v`
   * returns normally puts `oid` in all four stages.
   */
  lemma SetAllBreaksExclusive(ix: GitIndex, oid: Oid, v: Value)
    requires SetItem(ix, AllStages(oid), v).result.Success?
    ensures var r := SetItem(ix, AllStages(oid), v);
      Has(r.state, 0, oid) && Has(r.state, 1, oid) && Has(r.state, 2, oid) && Has(r.state, 3, oid)
    ensures !Exclusive(SetItem(ix, AllStages(oid), v).state, oid)
  {
  }

  /**
   * `index[oid] = v` never changes the index and never returns normally: it
   * raises `TypeError` itself, or delegates a tuple with `None` slots that
   * raises `ValueError` or `TypeError`.
   */
  lemma BareWriteNeverChanges(ix: GitIndex, oid: Oid, v: Value)
    ensures var r := SetItem(ix, Bare(oid), v);
      && r.state == ix
      && r.result.Failure?
      && (r.result.error == ValueError <==> v.EntryVal? && !Exclusive(ix, oid))
      && (r.result.error == ValueError || r.result.error == TypeError)
  {
  }

  /** Writes through `(s, oid)`, `(..., oid)` or `oid` change no key but `oid`. */
  lemma SetItemAgreesOff(ix: GitIndex, a: Address, v: Value)
    requires !a.OtherAddress?
    ensures AgreeOff(ix, SetItem(ix, a, v).state, a.oid)
  {
    match a
    case Pair(s, oid) =>
      if 1 <= s <= 3 {
        SetConflictAgreesOff(ix, s, oid, v);
      } else if s == 0 {
        SetCleanAgreesOff(ix, oid, v);
      }
    case AllStages(oid) => SetAllAgreesOff(ix, oid, v);
    case Bare(oid) =>
      if v.EntryVal? {
        SetAllAgreesOff(ix, oid, TupleVal([Some(v.entry), None, None, None]));
      }
  }

  lemma SetConflictAgreesOff(ix: GitIndex, s: nat, oid: Oid, v: Value)
    requires 1 <= s <= 3
    ensures AgreeOff(ix, SetConflict(ix, s, oid, v).state, oid)
  {
  }

  lemma SetCleanAgreesOff(ix: GitIndex, oid: Oid, v: Value)
    ensures AgreeOff(ix, SetClean(ix, oid, v).state, oid)
  {
    if v.EntryVal? {
      var ix' := PutAt(ix, 0, oid, v.entry);
      DelChainShrinks(ix', 1, oid);
      assert AgreeOff(ix, ix', oid);
    }
  }

  lemma SetAllAgreesOff(ix: GitIndex, oid: Oid, v: Value)
    ensures AgreeOff(ix, SetAll(ix, oid, v).state, oid)
  {
  }

  // ---------------------------------------------------------------------------
  // Deletes

  /**
   * `del index[oid]` and `del index[..., oid]` delete from stages 0 to 3 in
   * order; the first stage lacking `oid` raises `KeyError`, and the
   * deletions before it remain.
   */
  lemma DeleteAllOutcome(ix: GitIndex, a: Address)
    requires a.Bare? || a.AllStages?
    ensures var r := DelItem(ix, a);
      var stop := FirstMissing(ix, 0, a.oid);
      && (r.result.Success? <==> Has(ix, 0, a.oid) && Has(ix, 1, a.oid) && Has(ix, 2, a.oid) && Has(ix, 3, a.oid))
      && (r.result.Failure? ==> r.result.error == KeyError(a.oid))
      && forall j :: 0 <= j < 4 ==>
           r.state.stages[j] == if j < stop then Remove(ix.stages[j], a.oid) else ix.stages[j]
  {
  }

  /**
   * On an index that keeps the documented rule, `del index[oid]` never
   * returns normally: no object id is in all four stages.
   */
  lemma DeleteAllFailsUnderInvariant(ix: GitIndex, oid: Oid)
    requires Invariant(ix)
    ensures DelItem(ix, Bare(oid)).result == Failure(KeyError(oid))
    ensures DelItem(ix, AllStages(oid)).result == Failure(KeyError(oid))
  {
    assert Exclusive(ix, oid);
  }

  /** `del index[s, oid]` removes `oid` from stage s only, or raises `KeyError`. */
  lemma DeleteStageOutcome(ix: GitIndex, s: int, oid: Oid)
    requires 0 <= s <= 3
    ensures var r := DelItem(ix, Pair(s, oid));
      && (r.result.Success? <==> Has(ix, s, oid))
      && (r.result.Failure? ==> r == Outcome(Failure(KeyError(oid)), ix))
      && !Has(r.state, s, oid)
      && r.state.stages[s] == Remove(ix.stages[s], oid)
      && forall j :: 0 <= j < 4 && j != s ==> r.state.stages[j] == ix.stages[j]
  {
  }

  /** No delete can break the documented rule. */
  lemma DeleteKeepsInvariant(ix: GitIndex, a: Address)
    requires Invariant(ix)
    ensures Invariant(DelItem(ix, a).state)
  {
    var r := DelItem(ix, a);
    if a.Bare? || a.AllStages? {
      DelChainShrinks(ix, 0, a.oid);
    }
    ShrinksKeepsInvariant(ix, r.state);
  }

  // ---------------------------------------------------------------------------
  // Iteration, ls_files and len

  /** The entries an iteration yields for stage `s`, in order. */
  function OfStage(ps: seq<(int, IndexEntry)>, s: int): seq<IndexEntry> {
    if |ps| == 0 then [] else (if ps[0].0 == s then [ps[0].1] else []) + OfStage(ps[1..], s)
  }

  lemma {:induction false} OfStageAppend(a: seq<(int, IndexEntry)>, b: seq<(int, IndexEntry)>, s: int)
    ensures OfStage(a + b, s) == OfStage(a, s) + OfStage(b, s)
  {
    if |a| == 0 {
      assert a + b == b;
    } else {
      var ab := a + b;
      var h: seq<IndexEntry> := if a[0].0 == s then [a[0].1] else [];
      assert ab[0] == a[0];
      assert ab[1..] == a[1..] + b;
      OfStageAppend(a[1..], b, s);
      assert OfStage(ab, s) == h + OfStage(a[1..] + b, s);
      assert OfStage(a, s) == h + OfStage(a[1..], s);
      assert h + (OfStage(a[1..], s) + OfStage(b, s)) == (h + OfStage(a[1..], s)) + OfStage(b, s);
    }
  }

  lemma {:induction false} OfStageTagged(t: int, es: seq<IndexEntry>, s: int)
    ensures OfStage(Tagged(t, es), s) == if t == s then es else []
  {
    if |es| > 0 {
      assert Tagged(t, es)[1..] == Tagged(t, es[1..]);
      OfStageTagged(t, es[1..], s);
    }
  }

  /**
   * Iteration yields each stage's entries in insertion order, and nothing
   * else: stage s contributes exactly `stages[s].values()`.
   */
  lemma IterateStageContents(ix: GitIndex, s: int)
    requires 0 <= s < 4
    ensures OfStage(Iterate(ix), s) == Values(ix.stages[s])
  {
    var v0, v1, v2, v3 := Values(ix.stages[0]), Values(ix.stages[1]), Values(ix.stages[2]), Values(ix.stages[3]);
    OfStageConcat(Tagged(0, v0), Tagged(1, v1), Tagged(2, v2), Tagged(3, v3), s);
    OfStageTagged(0, v0, s);
    OfStageTagged(1, v1, s);
    OfStageTagged(2, v2, s);
    OfStageTagged(3, v3, s);
  }

  lemma OfStageConcat(t0: seq<(int, IndexEntry)>, t1: seq<(int, IndexEntry)>,
                      t2: seq<(int, IndexEntry)>, t3: seq<(int, IndexEntry)>, s: int)
    ensures OfStage(t0 + t1 + t2 + t3, s) == OfStage(t0, s) + OfStage(t1, s) + OfStage(t2, s) + OfStage(t3, s)
  {
    OfStageAppend(t0 + t1 + t2, t3, s);
    OfStageAppend(t0 + t1, t2, s);
    OfStageAppend(t0, t1, s);
  }

  /** Iteration visits stage 0 first, then stages 1, 2 and 3. */
  lemma IterateStageOrder(ix: GitIndex)
    ensures forall i, j :: 0 <= i < j < |Iterate(ix)| ==> Iterate(ix)[i].0 <= Iterate(ix)[j].0
    ensures forall i :: 0 <= i < |Iterate(ix)| ==> 0 <= Iterate(ix)[i].0 < 4
  {
  }

  /** `len()` is the number of pairs an iteration yields. */
  lemma LenIsIterationLength(ix: GitIndex)
    ensures Len(ix) == |Iterate(ix)|
  {
  }

  /** A pair is yielded by iteration exactly when its entry is stored in its stage. */
  lemma InIterate(ix: GitIndex, p: (int, IndexEntry))
    ensures p in Iterate(ix) <==> 0 <= p.0 < 4 && exists i :: 0 <= i < |ix.stages[p.0]| && ix.stages[p.0][i].value == p.1
  {
    var ts := [Tagged(0, Values(ix.stages[0])), Tagged(1, Values(ix.stages[1])),
               Tagged(2, Values(ix.stages[2])), Tagged(3, Values(ix.stages[3]))];
    assert Iterate(ix) == ts[0] + ts[1] + ts[2] + ts[3];
    if 0 <= p.0 < 4 && exists i :: 0 <= i < |ix.stages[p.0]| && ix.stages[p.0][i].value == p.1 {
      var i :| 0 <= i < |ix.stages[p.0]| && ix.stages[p.0][i].value == p.1;
      assert ts[p.0][i] == p;
    }
  }

  /**
   * `ls_files(unmerged)` is the set of names of the entries an iteration
   * yields: those of stage 0, or of every stage when `unmerged` is true.
   */
  lemma LsFilesFromIteration(ix: GitIndex, unmerged: bool, n: string)
    ensures n in LsFiles(ix, unmerged) <==>
      exists p :: p in Iterate(ix) && (unmerged || p.0 == 0) && p.1.name == n
  {
    if n in LsFiles(ix, unmerged) {
      var s, i :| 0 <= s < 4 && (unmerged || s == 0) && 0 <= i < |ix.stages[s]| && ix.stages[s][i].value.name == n;
      InIterate(ix, (s, ix.stages[s][i].value));
    }
    if exists p :: p in Iterate(ix) && (unmerged || p.0 == 0) && p.1.name == n {
      var p :| p in Iterate(ix) && (unmerged || p.0 == 0) && p.1.name == n;
      InIterate(ix, p);
    }
  }

  /** The unmerged listing includes the merged one. */
  lemma LsFilesMonotone(ix: GitIndex)
    ensures LsFiles(ix, false) <= LsFiles(ix, true)
  {
  }
}

=== FILE: refs.dfy ===
/**
 * Ref names and paths (gitgo/ref/ref.py) and the `Branch` specialisation
 * (gitgo/branch/branch.py).
 *
 * A ref is built either from a prefix and a name, giving the path
 * `prefix/name`, or from a whole path, whose last `/`-separated component
 * becomes the name.  The repository a ref belongs to is not modelled.
 */
module Refs {
  import opened Wrappers

  /** `s.split('/')`. */
  function Split(s: string): (r: seq<string>)
    ensures |r| >= 1
    ensures forall i :: 0 <= i < |r| ==> '/' !in r[i]
    decreases |s|
  {
    if |s| == 0 then [""]
    else
      var p := Split(s[..|s| - 1]);
      var c := s[|s| - 1];
      if c == '/' then p + [""] else p[..|p| - 1] + [p[|p| - 1] + [c]]
  }

  /** `'/'.join(parts)`. */
  function Join(parts: seq<string>): string
    requires |parts| >= 1
  {
    if |parts| == 1 then parts[0] else Join(parts[..|parts| - 1]) + "/" + parts[|parts| - 1]
  }

  /** Joining the parts of a split gives the string back. */
  lemma {:induction false} SplitJoin(s: string)
    ensures Join(Split(s)) == s
    decreases |s|
  {
    if |s| > 0 {
      var s' := s[..|s| - 1];
      SplitJoin(s');
      var p := Split(s');
      var c := s[|s| - 1];
      assert s == s' + [c];
      if c == '/' {
        assert Join(Split(s)) == Join(p) + [c] by {
          assert Split(s) == p + [""];
          JoinAppendEmpty(p);
        }
      } else {
        assert Join(Split(s)) == Join(p) + [c] by {
          assert Split(s) == p[..|p| - 1] + [p[|p| - 1] + [c]];
          JoinExtendLast(p, c);
        }
      }
    }
  }

  /** A new empty last part adds a trailing `/`. */
  lemma JoinAppendEmpty(p: seq<string>)
    requires |p| >= 1
    ensures Join(p + [""]) == Join(p) + "/"
  {
    assert (p + [""])[..|p|] == p;
  }

  /** A character added to the last part is added to the end of the join. */
  lemma JoinExtendLast(p: seq<string>, c: char)
    requires |p| >= 1
    ensures Join(p[..|p| - 1] + [p[|p| - 1] + [c]]) == Join(p) + [c]
  {
    var q := p[..|p| - 1] + [p[|p| - 1] + [c]];
    if |p| > 1 {
      assert q[..|q| - 1] == p[..|p| - 1];
    }
  }

  /** A component after the last `/` splits off as the last part. */
  lemma {:induction false} SplitAfterSlash(a: string, b: string)
    requires '/' !in b
    ensures Split(a + "/" + b) == Split(a) + [b]
    decreases |b|
  {
    if |b| == 0 {
      assert a + "/" + b == a + "/";
      assert (a + "/")[..|a|] == a;
    } else {
      var b' := b[..|b| - 1];
      assert (a + "/" + b)[..|a + "/" + b| - 1] == a + "/" + b';
      SplitAfterSlash(a, b');
      assert b' + [b[|b| - 1]] == b;
    }
  }

  /** A string without `/` splits into itself. */
  lemma {:induction false} SplitNoSlash(b: string)
    requires '/' !in b
    ensures Split(b) == [b]
    decreases |b|
  {
    if |b| > 0 {
      SplitNoSlash(b[..|b| - 1]);
      assert b[..|b| - 1] + [b[|b| - 1]] == b;
    }
  }

  /** Splitting a join of `/`-free parts gives the parts back. */
  lemma {:induction false} JoinSplit(parts: seq<string>)
    requires |parts| >= 1
    requires forall i :: 0 <= i < |parts| ==> '/' !in parts[i]
    ensures Split(Join(parts)) == parts
    decreases |parts|
  {
    if |parts| == 1 {
      SplitNoSlash(parts[0]);
    } else {
      var init := parts[..|parts| - 1];
      JoinSplit(init);
      SplitAfterSlash(Join(init), parts[|parts| - 1]);
    }
  }

  predicate EndsWith(s: string, suffix: string) {
    |suffix| <= |s| && s[|s| - |suffix|..] == suffix
  }

  /**
   * `s.split('/')[-1]`: the text after the last `/`, or all of `s` when it
   * has none.
   */
  function LastComponent(s: string): (r: string)
    ensures '/' !in r
    ensures EndsWith(s, r)
    ensures |r| == |s| || s[|s| - |r| - 1] == '/'
    decreases |s|
  {
    var p := Split(s);
    LastComponentSpec(s);
    p[|p| - 1]
  }

  lemma {:induction false} LastComponentSpec(s: string)
    ensures var p := Split(s); var l := p[|p| - 1];
      EndsWith(s, l) && (|l| == |s| || s[|s| - |l| - 1] == '/')
    decreases |s|
  {
    if |s| > 0 {
      LastComponentSpec(s[..|s| - 1]);
    }
  }

  /** A ref: its short name and its full path. */
  datatype GitRef = GitRef(name: string, path: string)

  /**
   * `GitRef(repo, path_or_prefix, name)`: with a non-empty name, the path is
   * `prefix/name`; otherwise the argument is the whole path and the name is
   * its last component.
   */
  function NewRef(pathOrPrefix: string, name: Option<string>): (r: GitRef)
    ensures EndsWith(r.path, r.name)
    ensures name.Some? && name.value != "" ==>
      r.name == name.value && r.path == pathOrPrefix + "/" + name.value
    ensures !(name.Some? && name.value != "") ==>
      r.path == pathOrPrefix && '/' !in r.name &&
      (|r.name| == |r.path| || r.path[|r.path| - |r.name| - 1] == '/')
  {
    if name.Some? && name.value != "" then
      var path := pathOrPrefix + "/" + name.value;
      assert path[|path| - |name.value|..] == name.value;
      GitRef(name.value, path)
    else GitRef(LastComponent(pathOrPrefix), pathOrPrefix)
  }

  /** `str(ref)`. */
  function ToStr(r: GitRef): string {
    r.path
  }

  /** A path ending in `/` names the empty string. */
  lemma TrailingSlashNamesNothing(path: string)
    requires |path| > 0 && path[|path| - 1] == '/'
    ensures NewRef(path, None).name == ""
  {
  }

  /**
   * Rebuilding a ref from `str(ref)` gives the same ref back, for every ref
   * built from a whole path and for every ref whose name has no `/`.
   */
  lemma RebuildFromStr(pathOrPrefix: string, name: Option<string>)
    requires name.Some? ==> '/' !in name.value
    ensures NewRef(ToStr(NewRef(pathOrPrefix, name)), None) == NewRef(pathOrPrefix, name)
  {
    if name.Some? && name.value != "" {
      SplitAfterSlash(pathOrPrefix, name.value);
    }
  }

  /** The prefix `Branch` passes to `GitRef`. */
  const HeadsPrefix := "refs/heads/"

  /**
   * `Branch(repo, name)` as written: the prefix already ends in `/`, so a
   * non-empty name is joined with a second `/`.
   */
  function NewBranch(name: string): (r: GitRef)
    ensures name != "" ==> r.path == "refs/heads//" + name && r.name == name
    ensures name == "" ==> r.path == HeadsPrefix && r.name == ""
    ensures |HeadsPrefix| <= |r.path| && r.path[..|HeadsPrefix|] == HeadsPrefix
  {
    NewRef(HeadsPrefix, Some(name))
  }

  /** As written, a branch path is never the `refs/heads/<name>` git uses. */
  lemma BranchPathDoubledSlash(name: string)
    requires name != ""
    ensures NewBranch(name).path[10..12] == "//"
    ensures NewBranch(name).path != HeadsPrefix + name
  {
    var p := NewBranch(name).path;
    assert |p| == |HeadsPrefix + name| + 1;
  }

  /** `Branch(repo, name)` with the prefix written `'refs/heads'`, without the trailing `/`. */
  function NewBranchIntended(name: string): GitRef {
    NewRef("refs/heads", Some(name))
  }

  /**
   * The corrected branch has path `refs/heads/<name>` and keeps its name,
   * and rebuilding it from that path gives the same branch when the name
   * has no `/`.
   */
  lemma BranchIntendedPath(name: string)
    requires name != ""
    ensures NewBranchIntended(name).path == HeadsPrefix + name
    ensures NewBranchIntended(name).name == name
    ensures '/' !in name ==> NewRef(NewBranchIntended(name).path, None) == NewBranchIntended(name)
  {
    if '/' !in name {
      RebuildFromStr("refs/heads", Some(name));
    }
  }
}

=== FILE: stage_table.dfy ===
/**
 * One stage of the staging index: a Python `dict` from object id to entry.
 *
 * A dict is modelled as an association list with distinct keys, in insertion
 * order, so that iteration order can be stated.  Assigning to a key that is
 * already present keeps that key's position; assigning to a new key appends;
 * deleting a key closes the gap.
 */
module StageTable {
  import opened Wrappers

  /** An object id; `Oid` is a `NewType` over `str`. */
  type Oid = string

  datatype Binding<V> = Binding(key: Oid, value: V)

  predicate DistinctKeys<V>(t: seq<Binding<V>>) {
    forall i, j :: 0 <= i < j < |t| ==> t[i].key != t[j].key
  }

  /** A dict: no key occurs twice. */
  type Table<V> = t: seq<Binding<V>> | DistinctKeys(t) witness []

  /** The keys of `t`, as a set. */
  function Keys<V>(t: seq<Binding<V>>): set<Oid> {
    set i | 0 <= i < |t| :: t[i].key
  }

  /** The values of `t` in insertion order, as `dict.values()` yields them. */
  function Values<V>(t: seq<Binding<V>>): seq<V> {
    seq(|t|, i requires 0 <= i < |t| => t[i].value)
  }

  lemma KeysCons<V>(t: seq<Binding<V>>)
    requires |t| > 0
    ensures Keys(t) == {t[0].key} + Keys(t[1..])
  {
    forall k | k in Keys(t) ensures k in {t[0].key} + Keys(t[1..]) {
      var i :| 0 <= i < |t| && t[i].key == k;
      if i > 0 {
        assert t[1..][i - 1].key == k;
      }
    }
    forall k | k in Keys(t[1..]) ensures k in Keys(t) {
      var i :| 0 <= i < |t[1..]| && t[1..][i].key == k;
      assert t[i + 1].key == k;
    }
  }

  /** Python's `d.get(k, None)`. */
  function Find<V>(t: seq<Binding<V>>, k: Oid): (r: Option<V>)
    ensures r.None? <==> k !in Keys(t)
    ensures r.Some? ==> Binding(k, r.value) in t
  {
    if |t| == 0 then None
    else
      KeysCons(t);
      if t[0].key == k then Some(t[0].value) else Find(t[1..], k)
  }

  /** In a dict, a binding that is present is the one `get` finds. */
  lemma {:induction false} FindBinding<V>(t: Table<V>, k: Oid, v: V)
    requires Binding(k, v) in t
    ensures Find(t, k) == Some(v)
  {
    var i :| 0 <= i < |t| && t[i] == Binding(k, v);
    if i > 0 {
      assert t[0].key != k;
      assert t[1..][i - 1] == Binding(k, v);
      FindBinding(t[1..], k, v);
    }
  }

  /** Replaces the value of key `k` wherever it occurs, keeping every position. */
  function Overwrite<V>(t: seq<Binding<V>>, k: Oid, v: V): (r: seq<Binding<V>>)
    ensures |r| == |t|
    ensures forall i :: 0 <= i < |t| ==> r[i].key == t[i].key
    ensures Keys(r) == Keys(t)
    ensures forall k' :: k' != k ==> Find(r, k') == Find(t, k')
    ensures k in Keys(t) ==> Find(r, k) == Some(v)
  {
    if |t| == 0 then []
    else
      var rest := Overwrite(t[1..], k, v);
      var r := [if t[0].key == k then Binding(k, v) else t[0]] + rest;
      assert r[1..] == rest;
      KeysCons(t);
      KeysCons(r);
      r
  }

  /**
   * Python's `d[k] = v`: an existing key keeps its position and takes the new
   * value; a new key is appended at the end.
   */
  function Put<V>(t: Table<V>, k: Oid, v: V): (r: Table<V>)
    ensures Find(r, k) == Some(v)
    ensures forall k' :: k' != k ==> Find(r, k') == Find(t, k')
    ensures Keys(r) == Keys(t) + {k}
    ensures k in Keys(t) ==> |r| == |t| && forall i :: 0 <= i < |t| ==> r[i].key == t[i].key
    ensures k !in Keys(t) ==> r == t + [Binding(k, v)]
  {
    if k in Keys(t) then
      var r := Overwrite(t, k, v);
      assert DistinctKeys(r);
      r
    else
      var r := t + [Binding(k, v)];
      assert Keys(r) == Keys(t) + {k} by {
        assert r[|t|].key == k;
        assert forall i :: 0 <= i < |t| ==> r[i] == t[i];
      }
      FindAppend(t, k, v);
      r
  }

  lemma {:induction false} FindAppend<V>(t: seq<Binding<V>>, k: Oid, v: V)
    requires k !in Keys(t)
    ensures Find(t + [Binding(k, v)], k) == Some(v)
    ensures forall k' :: k' != k ==> Find(t + [Binding(k, v)], k') == Find(t, k')
  {
    if |t| > 0 {
      KeysCons(t);
      assert (t + [Binding(k, v)])[1..] == t[1..] + [Binding(k, v)];
      FindAppend(t[1..], k, v);
    }
  }

  /**
   * Python's `del d[k]` on a key that is present (or a no-op on one that is
   * absent): the binding is dropped and the others keep their order.
   */
  function Remove<V>(t: Table<V>, k: Oid): (r: Table<V>)
    ensures Keys(r) == Keys(t) - {k}
    ensures Find(r, k) == None
    ensures forall k' :: k' != k ==> Find(r, k') == Find(t, k')
    ensures k !in Keys(t) ==> r == t
  {
    if |t| == 0 then []
    else
      KeysCons(t);
      var tail: Table<V> := t[1..];
      if t[0].key == k then
        tail
      else
        var r := [t[0]] + Remove(tail, k);
        assert r[1..] == Remove(tail, k);
        KeysCons(r);
        r
  }

  /** The position of key `k` in `t`. */
  function IndexOf<V>(t: seq<Binding<V>>, k: Oid): (i: nat)
    requires k in Keys(t)
    ensures i < |t| && t[i].key == k
  {
    KeysCons(t);
    if t[0].key == k then 0 else IndexOf(t[1..], k) + 1
  }

  /** Deleting a present key drops exactly its binding; the rest keep their order. */
  lemma {:induction false} RemoveKeepsOrder<V>(t: Table<V>, k: Oid)
    requires k in Keys(t)
    ensures Remove(t, k) == t[..IndexOf(t, k)] + t[IndexOf(t, k) + 1..]
    ensures |Remove(t, k)| == |t| - 1
  {
    KeysCons(t);
    var tail: Table<V> := t[1..];
    if t[0].key == k {
      assert t[..0] + t[1..] == tail;
    } else {
      RemoveKeepsOrder(tail, k);
      RemoveStep(t, k, IndexOf(tail, k));
    }
  }

  /** Dropping position `j + 1` of `t` is `t[0]` in front of `t[1..]` without position `j`. */
  lemma ConsSplice<V>(t: seq<Binding<V>>, j: nat)
    requires j + 1 < |t|
    ensures [t[0]] + (t[1..][..j] + t[1..][j + 1..]) == t[..j + 1] + t[j + 2..]
  {
    assert t[..j + 1] == [t[0]] + t[1..][..j];
    assert t[j + 2..] == t[1..][j + 1..];
  }

  lemma RemoveStep<V>(t: Table<V>, k: Oid, j: nat)
    requires |t| > 0 && t[0].key != k && j + 1 < |t|
    requires Remove(t[1..], k) == t[1..][..j] + t[1..][j + 1..]
    ensures Remove(t, k) == t[..j + 1] + t[j + 2..]
  {
    ConsSplice(t, j);
  }
}

=== FILE: wrappers.dfy ===
/** Failure-carrying datatypes shared by every module of the model. */
module Wrappers {

  /** An optional value; Python's `None` or a present value. */
  datatype Option<+T> = None | Some(value: T)

  /** The outcome of a Python call that returns normally or raises. */
  datatype Result<+R, +E> = Success(value: R) | Failure(error: E)
}
